=== FILE: README.md ===
# SkillStack front end — a Dafny model of its client-side rules

SkillStack is a learning tracker. Users register skills, split them into
subtopics, log study sessions and follow their progress on a dashboard and an
analytics page. The server computes every number: progress, learned hours,
skill status and whether a skill has just been completed. The React client
holds a small set of rules of its own. They decide what is sent to the server,
what is refused before any request, and how a reply is shown. This project
models those rules as pure Dafny functions over immutable datatypes and proves
their properties.

Modules, one per source component plus shared foundations:

- `Wrappers`: `Option` and `Result`.
- `JsText`: the ECMAScript white-space class, `String.prototype.trim`, and `length` in UTF-16 code units.
- `JsNumbers`: primitive JavaScript values, `Number(v)` (StringToNumber included), truthiness, `||`, and comparisons involving NaN.
- `Api`: the reply of a server call, the `response.data || response` envelope, and the server's skill and dashboard shapes.
- `Badges`: Bootstrap colour variants and the `status.replace("-", " ")` label.
- `SkillDetail`: the guard on subtopic status updates, session validation and payload, the completion-review modal, the actions offered per status, and the review rating.
- `AddSkillModal`: topic-list editing, and cleaning of the skill draft into the create payload.
- `Dashboard`, `SkillsList`, `Register`, `Analytics`: the rules of those views.
- `CrossView`: how the views that re-implement the same rule agree or differ.

Every server call is a parameter of the handler that makes it: a `Reply` value,
either `Ok` or `Failed` with the server's optional error message. Each handler
returns a record of what can be observed: the request it sends (if any), the
alert or error text shown, the new form or modal state, and whether the
`refreshDashboard` window event fires.

## Model

| member | source | states |
|---|---|---|
| `SkillDetail.FindSubtopic` | src/components/skills/SkillDetail.jsx:48 | no subtopic is found exactly when no listed subtopic has the id; a found subtopic is the first one in the list that carries the id, as `find` returns |
| `SkillDetail.UpdateGuard` | src/components/skills/SkillDetail.jsx:45-60 | rejected with "Subtopic not found." iff the id is absent; rejected with the log-time message iff the subtopic exists, `completed` is requested, and its expected or spent hours coerce to 0; otherwise sends exactly (id, requested status) |
| `SkillDetail.NoHours` | src/components/skills/SkillDetail.jsx:55 | hours are absent iff `Number(x)` is NaN or 0; undefined and null are absent; a positive number is present |
| `SkillDetail.BlankHoursAreNoHours` | src/components/skills/SkillDetail.jsx:55 | a white-space-only hours string counts as no hours |
| `SkillDetail.NumeralHoursCount` | src/components/skills/SkillDetail.jsx:55 | hours sent as a positive decimal numeral count as logged time |
| `SkillDetail.FractionHoursCount` | src/components/skills/SkillDetail.jsx:55 | hours sent as a decimal fraction such as "0.5" or "2.50" count as logged time iff one of their digits is not zero |
| `SkillDetail.NonCompletionNeverBlocked` | src/components/skills/SkillDetail.jsx:54-60 | a request for any status other than `completed` is sent iff the subtopic exists; the hours check never blocks it |
| `SkillDetail.CompletionNeedsBothHours` | src/components/skills/SkillDetail.jsx:54-59 | completing an existing subtopic is sent iff both its expected hours and its spent hours are non-zero |
| `SkillDetail.ModalAfterUpdate` | src/components/skills/SkillDetail.jsx:64-66 | a reply with a truthy `skill_completed` opens the review modal for `skill_id`, or for the route id when `skill_id` is falsy; any other reply leaves the modal as it was |
| `SkillDetail.HandleUpdateSubtopic` | src/components/skills/SkillDetail.jsx:45-76 | a request is made iff the guard lets it through, and then carries exactly (id, status); a rejection alerts its message and changes nothing; the refresh fires iff the server accepted; a failure alerts the server's message or the fallback and keeps the modal |
| `SkillDetail.ModalOpensOnlyOnCompletion` | src/components/skills/SkillDetail.jsx:62-66 | starting from a closed modal, the modal ends up open iff the update was sent, the server accepted it, and the server reported the skill completed |
| `SkillDetail.OfferedActions` | src/components/skills/SkillDetail.jsx:220-236 | Start is offered iff the status is neither `in-progress` nor `completed`; Mark Complete and Log Session are offered iff it is not `completed`; a completed subtopic offers nothing |
| `SkillDetail.OfferedRequestsMoveForward` | src/components/skills/SkillDetail.jsx:220-236 | every status an offered button requests lies strictly ahead of the current status on to-learn, in-progress, completed |
| `SkillDetail.StartIsNeverBlocked` | src/components/skills/SkillDetail.jsx:220-224 | the Start request for any listed subtopic is always sent as (id, `in-progress`) |
| `SkillDetail.StatusBadge` | src/components/skills/SkillDetail.jsx:215 | `completed` is success, `in-progress` is primary, and every other status is secondary |
| `SkillDetail.SessionFlow` | src/components/skills/SkillDetail.jsx:79-107 | opening the session modal on a subtopic with a truthy id, typing a positive whole number of minutes and saving sends exactly (route id, subtopic id, those minutes, "") and closes the modal with no subtopic selected; the opening step is `OpenSessionModal` (selects the subtopic, clears both inputs) and the closing step is `CloseSessionModal` (clears the selection) |
| `SkillDetail.ClosedSessionIsNoOp` | src/components/skills/SkillDetail.jsx:85-90 | after the modal is closed, saving sends nothing, alerts nothing and changes nothing, whatever minutes and notes were typed; the modal is closed through `CloseSessionModal`, which keeps the typed inputs |
| `SkillDetail.ValidateDuration` | src/components/skills/SkillDetail.jsx:91-95 | a duration is accepted iff `Number(text)` is greater than 0, and the accepted value is that number; otherwise the validation message is returned |
| `SkillDetail.BlankDurationRejected` | src/components/skills/SkillDetail.jsx:91-95 | an empty or white-space-only duration is rejected |
| `SkillDetail.TypedMinutesAccepted` | src/components/skills/SkillDetail.jsx:91-95 | a positive integer typed in decimal is accepted as exactly that many minutes |
| `SkillDetail.NonNumericRejected` | src/components/skills/SkillDetail.jsx:91-95 | any duration text without a decimal digit is rejected, except text that trims to "Infinity" or "+Infinity" |
| `SkillDetail.NonPositiveMinutesRejected` | src/components/skills/SkillDetail.jsx:91-95 | "0" and any negative integer are rejected |
| `SkillDetail.HandleAddSession` | src/components/skills/SkillDetail.jsx:89-115 | no selected subtopic (or the falsy id 0) makes it a no-op; a request is made iff a subtopic is selected and the duration is valid; the payload carries `Number(route id)`, the subtopic id, the validated minutes and the notes ("" when none); success closes the modal and fires the refresh; failure alerts and keeps the modal |
| `SkillDetail.HandleSaveCompletion` | src/components/skills/SkillDetail.jsx:117-143 | without a truthy skill id nothing happens; otherwise the review request carries that id with the rating and notes; success resets rating to 0 and notes to "" and closes the modal; failure alerts and changes nothing |
| `SkillDetail.ReviewStep` | src/components/skills/SkillDetail.jsx:294-307 | a star sets the rating and nothing else; typing sets the notes and nothing else; Skip closes the modal and keeps the rating and notes; a save either resets the form or leaves it unchanged |
| `SkillDetail.RatingStaysInRange` | src/components/skills/SkillDetail.jsx:294-295 | from a rating in 0..5, any sequence of star clicks (1..5), note edits, opens, skips and saves keeps the rating in 0..5 |
| `SkillDetail.SavedReviewResets` | src/components/skills/SkillDetail.jsx:132-134 | a successful save leads to the initial review state, whatever the state before |
| `AddSkillModal.ChangeSubtopic` | src/components/skills/AddSkillModal.jsx:26-30 | only the chosen field of the chosen topic changes; the length and every other topic stay the same |
| `AddSkillModal.AddSubtopic` | src/components/skills/AddSkillModal.jsx:32-37 | the list grows by one empty topic at the end; the existing topics are unchanged |
| `AddSkillModal.RemoveSubtopic` | src/components/skills/AddSkillModal.jsx:39-42 | exactly the topic at the index is removed and the others keep their order; an index outside the list changes nothing |
| `AddSkillModal.RemoveUndoesAdd` | src/components/skills/AddSkillModal.jsx:32-42 | removing the topic just added restores the list |
| `AddSkillModal.TopicsNeverEmpty` | src/components/skills/AddSkillModal.jsx:181-189 | while removal is only offered for more than one topic, no run of offered edits empties a non-empty list |
| `AddSkillModal.InitialTopicsNeverEmpty` | src/components/skills/AddSkillModal.jsx:7-14 | the form starts with one empty topic, and every topic list reachable through the form is non-empty |
| `AddSkillModal.CleanTopics` | src/components/skills/AddSkillModal.jsx:50-55 | every cleaned topic has a non-empty title, and neither its title nor its description has leading or trailing white space |
| `AddSkillModal.CleanTopicsSpec` | src/components/skills/AddSkillModal.jsx:50-55 | the cleaned topics are exactly the topics whose trimmed title is non-empty, trimmed, in their original order; every kept position is increasing and every non-blank position is kept |
| `AddSkillModal.CleanTopicsIdempotent` | src/components/skills/AddSkillModal.jsx:50-55 | cleaning cleaned topics changes nothing |
| `AddSkillModal.BuildPayload` | src/components/skills/AddSkillModal.jsx:57-64 | the name and description sent are the typed ones trimmed, the name being empty iff only white space was typed; resource type, platform and target hours are forwarded unchanged; the topics sent are exactly the cleaned topics (`CleanTopics`, characterised by `CleanTopicsSpec`) |
| `AddSkillModal.BuildPayloadIdempotent` | src/components/skills/AddSkillModal.jsx:50-64 | building a payload from a built payload gives the same payload |
| `AddSkillModal.HandleSubmit` | src/components/skills/AddSkillModal.jsx:44-74 | the create request carries the cleaned payload; on success the error is cleared and both callbacks run; on failure the error is the server message or "Error creating skill", and neither callback runs |
| `Dashboard.GetProgressVariant` | src/components/dashboard/Dashboard.jsx:41-45 | for every value: success iff `progress >= 80`, warning iff `progress >= 50` but not `>= 80`, danger iff not `progress >= 50` (so NaN is danger) |
| `Dashboard.ProgressBands` | src/components/dashboard/Dashboard.jsx:41-45 | progress of 80 or more is success, 50 up to 80 is warning, below 50 is danger, and a missing progress is danger |
| `Dashboard.ProgressVariantMonotone` | src/components/dashboard/Dashboard.jsx:41-45 | more progress never gives a lower band |
| `Dashboard.GetStatusVariant` | src/components/dashboard/Dashboard.jsx:47-53 | `completed` is success, `in-progress` is primary, and every other status is secondary |
| `Dashboard.TopFive` | src/components/dashboard/Dashboard.jsx:173 | the panel holds the first min(5, n) skills, in order |
| `Dashboard.TopFiveIgnoresTail` | src/components/dashboard/Dashboard.jsx:173 | skills beyond the fifth never affect the panel |
| `Dashboard.Render` | src/components/dashboard/Dashboard.jsx:172-205 | the "No skills yet" notice is shown iff the skill list is empty; the cards are those of the first five skills, in order; the activity and category notices are shown iff those lists are empty |
| `Dashboard.LoadedData` | src/components/dashboard/Dashboard.jsx:33 | an envelope with data yields that data; a bare payload yields itself; an envelope without data yields nothing usable |
| `SkillsList.GetStatusVariant` | src/components/skills/SkillsList.jsx:69-78 | `completed` is success, `in-progress` is warning, and every other status is secondary |
| `SkillsList.GetProgressVariant` | src/components/skills/SkillsList.jsx:80-84 | for every value: success iff progress reaches 80, warning iff it reaches 50 but not 80, danger iff it does not reach 50 |
| `SkillsList.ShowTargetHours` | src/components/skills/SkillsList.jsx:168 | a numeric target shows the label iff it is above 0; undefined and null hide it; the label is shown only for a truthy target |
| `SkillsList.TargetHoursLabel` | src/components/skills/SkillsList.jsx:168-173 | for a numeric target, the label shows iff the target is above 0; a missing, null or empty target hides it; a decimal numeral shows it iff it is above 0 |
| `SkillsList.OpenDeletePopup` | src/components/skills/SkillsList.jsx:45-48 | opening selects the skill and shows the modal |
| `SkillsList.HandleConfirmDelete` | src/components/skills/SkillsList.jsx:50-67 | with no selection nothing happens; otherwise the selected skill's id is deleted; success clears the selection, closes the modal, shows the toast and fires the refresh; failure leaves the state unchanged |
| `SkillsList.ConfirmDeletesOpenedSkill` | src/components/skills/SkillsList.jsx:45-57 | confirming right after opening deletes exactly the skill the popup was opened for |
| `SkillsList.Render` | src/components/skills/SkillsList.jsx:113-210 | one card per skill, in order; each card shows the target label iff the target is above 0; the empty-state card is shown iff there are no skills |
| `Register.Precheck` | src/components/auth/Register.jsx:30-38 | the mismatch message iff the passwords differ; the length message iff they match and the password is shorter than 6 UTF-16 units; no message iff they match and it is at least 6 units |
| `Register.MismatchTakesPrecedence` | src/components/auth/Register.jsx:30-38 | differing passwords give the mismatch message even when the password is also too short |
| `Register.LengthCountsCodeUnits` | src/components/auth/Register.jsx:35 | three characters outside the Basic Multilingual Plane reach length 6; five ASCII letters do not |
| `Register.HandleRegister` | src/components/auth/Register.jsx:26-51 | `register(username, email, password)` is called iff the passwords match and are at least 6 units long; a failed check shows its message; success navigates to /login with no error; failure shows the result's error |
| `Analytics.ExpectedSeries` | src/components/analytics/Analytics.jsx:67 | one entry per skill, in order: the target hours when truthy, else 0 |
| `Analytics.ActualSeries` | src/components/analytics/Analytics.jsx:68 | one entry per skill, in order: the learned hours when truthy, else 0 |
| `Analytics.SkillLabels` | src/components/analytics/Analytics.jsx:69 | one label per skill, in order, equal to its name |
| `Analytics.SeriesHaveNoFalsyGaps` | src/components/analytics/Analytics.jsx:67-68 | every plotted value is truthy or 0 |
| `Analytics.SeriesExtend` | src/components/analytics/Analytics.jsx:67-69 | appending a skill appends exactly one entry to each of the three series |
| `Analytics.DynamicHeight` | src/components/analytics/Analytics.jsx:71 | the height is at least 250 and at least 55 per skill, and equals one of the two |
| `Analytics.DynamicHeightMonotone` | src/components/analytics/Analytics.jsx:71 | more skills never shrink the chart |
| `Analytics.CategoryLabels` | src/components/analytics/Analytics.jsx:105 | the labels are the breakdown's keys in property order |
| `Analytics.CategoryValues` | src/components/analytics/Analytics.jsx:108 | the values are the breakdown's values in the same order |
| `Analytics.LabelsMatchCounts` | src/components/analytics/Analytics.jsx:104-108 | for a breakdown object (distinct keys), the value at each label's position is the object's value for that label, and the labels are exactly the object's keys |
| `Analytics.CategoriesAligned` | src/components/analytics/Analytics.jsx:104-114 | labels and values have equal length, and zipping them gives back the breakdown |
| `Analytics.AnalyticsData` | src/components/analytics/Analytics.jsx:39 | data is present iff the response is an envelope carrying data |
| `Analytics.ChartWithoutSkills` | src/components/analytics/Analytics.jsx:64-71 | data without `skills_progress` draws an empty chart of height 250 instead of failing |
| `Analytics.ChartFollowsSkills` | src/components/analytics/Analytics.jsx:64-69 | a present skill list gives one label per skill, in order, equal to its name |
| `Analytics.ChartOf` | src/components/analytics/Analytics.jsx:64-71 | labels, expected and actual series all have the skill count as length, and the height is at least 250; the skill list is `SkillsOf`, i.e. `skills_progress \|\| []` |
| `CrossView.ProgressVariantsAgree` | src/components/skills/SkillsList.jsx:80-84 | the skills-list and dashboard progress colourings agree on every input |
| `CrossView.StatusVariantsDifferOnlyInProgress` | src/components/skills/SkillsList.jsx:69-78 | the two status colourings differ exactly on `in-progress`, which is primary on the dashboard and warning in the list |
| `CrossView.DetailBadgeMatchesDashboard` | src/components/skills/SkillDetail.jsx:215 | the detail page's status colours are the dashboard's |
| `CrossView.UnwrappingDiffers` | src/components/analytics/Analytics.jsx:39 | for an envelope, analytics and dashboard see the same data; for a bare payload, the dashboard renders it while analytics finds nothing |
| `Api.ServerMessageOr` | src/components/skills/SkillDetail.jsx:72-73 | a non-empty server message is shown as is; otherwise the view's fallback message is shown |
| `Api.Normalize` | src/components/dashboard/Dashboard.jsx:33 | an envelope with data unwraps to the data; anything else is kept |
| `Api.NormalizeUsable` | src/components/skills/SkillsList.jsx:37 | after unwrapping, data is usable iff the response carried some, and it is that data |
| `Badges.StatusLabel` | src/components/dashboard/Dashboard.jsx:187 | same length; only the first '-' becomes a space; a status without '-' is unchanged |
| `Badges.StatusLabels` | src/components/skills/SkillsList.jsx:128 | `in-progress` shows as "in progress", `to-learn` as "to learn", and `completed` is unchanged |
| `JsText.Trim` | src/components/skills/AddSkillModal.jsx:51-54 | the result has no white space at either end, is no longer than the input, and is empty iff the input is all white space |
| `JsText.TrimUnique` | src/components/skills/AddSkillModal.jsx:53 | any split into white space, a trimmed middle and white space gives that middle as the trim |
| `JsText.TrimIdempotent` | src/components/skills/AddSkillModal.jsx:53-54 | trimming twice is trimming once |
| `JsText.Utf16Length` | src/components/auth/Register.jsx:35 | the length lies between the number of characters and twice that number, equals the character count when every character is in the Basic Multilingual Plane, and a single character counts 2 iff it lies above U+FFFF |
| `JsText.Utf16LengthConcat` | src/components/auth/Register.jsx:35 | the length of a concatenation is the sum of the lengths, so with the one-character values the length of every password is fixed |
| `JsNumbers.NumberOrZero` | src/components/skills/SkillDetail.jsx:55 | NaN and 0 become 0; every other number is kept; the result is never NaN |
| `JsNumbers.OrLaws` | src/components/analytics/Analytics.jsx:67-68 | `u \|\| v` is truthy iff u or v is; chains of `\|\|` group either way; `n \|\| 0` on a number is `NumberOrZero`; `Or` itself gives the first operand when it is truthy and the second otherwise |
| `JsNumbers.ToNumber` | src/components/skills/SkillDetail.jsx:91 | undefined converts to NaN, null to 0, true to 1 and false to 0, a number to itself, and a string by the string-to-number conversion (`JsNumbers.StringToNumber`) |
| `JsNumbers.StringToNumber` | src/components/skills/SkillDetail.jsx:91 | a white-space-only string converts to 0 |
| `JsNumbers.StringToNumberIgnoresWhite` | src/components/skills/SkillDetail.jsx:91 | white space around a numeral does not change its value |
| `JsNumbers.NegatedNumeral` | src/components/skills/SkillDetail.jsx:91 | `Number` of "-" followed by the decimal numeral of n is -n |
| `JsNumbers.FractionNumeral` | src/components/skills/SkillDetail.jsx:55 | `Number(a + "." + b)` for decimal digits a (possibly none) and at least one digit b is the integer spelled by a and b divided by 10 to the number of digits in b |
| `JsNumbers.DecimalTextRoundTrip` | src/components/skills/SkillDetail.jsx:91 | `Number` of the decimal numeral of n is n |

## Left out

- Server-side computation: progress percentage, learned hours, skill status roll-up, `skill_completed`, completion rate and category counts arrive in replies. They are opaque `Value`s here; no rounding or roll-up formula is modelled.
- The service layer (`src/services/skillService.jsx` and the API client) is not part of this model. Each call is a `Reply` parameter of the handler that makes it.
- Reloading after a mutation (`fetchSkill`, `fetchDashboardData`, `fetchSkills`) is not modelled. The handlers stop at the reply; the reload only replaces the snapshot with what the server sends.
- The `refreshDashboard` window event is a `refreshed` flag in each outcome. Listeners and delivery are not modelled.
- The review is saved by one POST to `/skills/{id}/review`: the service layer defines no `completeSkill`, so the branch that would try it first never runs. The model has one review call with one reply.
- Loading flags, disabled buttons while a request is in flight, render timing and React hooks are not modelled. Neither are concurrent clicks.
- The browser's own form validation is not modelled: `required` and `min` attributes act before `handleSubmit` runs. The handler itself sends whatever was typed.
- `handleSubtopicChange` writes into the topic object that the previous state shares. Values are immutable here, so that aliasing has no counterpart; the resulting list is modelled.
- JsNumbers.StringToNumber: its own contract states only the blank case. The numeral cases are stated by `JsNumbers.DecimalTextRoundTrip`, `JsNumbers.NegatedNumeral`, `JsNumbers.FractionNumeral` and `JsNumbers.StringToNumberIgnoresWhite`; exponent and radix-prefixed numerals are modelled but have no lemma of their own.
- JsNumbers.ToNumber: numbers are exact reals. IEEE-754 rounding, overflow to Infinity (as in "1e400") and negative zero are not modelled.
- Field values are primitives: objects and arrays inside a response are not modelled. Statuses are strings. The markup calls `status.replace`, which would throw on a non-string.
- Dashboard.LoadedData: an envelope without `data` becomes the dashboard's state in the source, and its markup then fails to read `stats`. Here that is "nothing usable".
- Dashboard.Render requires `skills_progress` to be present, because the markup reads its `length`. Recent activities are reduced to their count, which decides the "No recent activity yet." notice. The stats cards only display server numbers.
- Dashboard.Render: the category breakdown is always present here. In the source a response without `category_breakdown` makes `Object.entries` throw (src/components/dashboard/Dashboard.jsx:248); that failure is not modelled.
- Analytics.CategoryLabels: likewise, `Object.keys` and `Object.values` throw on a missing `category_breakdown` (src/components/analytics/Analytics.jsx:105-108); the model always has one.
- Presentation and routing: Home, Login, navigation bars, layout, route guards, Bootstrap markup, Chart.js rendering and toasts.
- No view offers a reset to `to-learn`, because a completed subtopic has no buttons, so no reset is modelled. Asking for the status a subtopic already has is not skipped on the client. Any request that passes the guard is sent, and the server decides.

=== FILE: add_skill_modal.dfy ===
/**
  The add-skill form: its initial state, the editing of the topic list, and
  the cleaning of the draft into the payload sent when the form is submitted.
*/
module AddSkillModal {
  import opened Wrappers
  import opened JsText
  import opened Api

  const CreateFailedMessage := "Error creating skill"

  /** A topic the user typed. */
  datatype TopicDraft = TopicDraft(title: string, description: string)

  const EmptyTopic := TopicDraft("", "")

  /** The form state. `targetHours` is the raw text of the number input. */
  datatype SkillForm = SkillForm(
    name: string,
    resourceType: string,
    platform: string,
    targetHours: string,
    description: string,
    subtopics: seq<TopicDraft>)

  /** The form as it opens: every field empty and a single empty topic. */
  const InitialForm := SkillForm("", "", "", "", "", [EmptyTopic])

  // ---------------------------------------------------------------------------
  // Editing the topic list

  datatype Field = Title | Description

  /** `handleSubtopicChange(index, field, value)`; the form only calls it for an existing topic. */
  function ChangeSubtopic(ts: seq<TopicDraft>, index: nat, field: Field, value: string): (r: seq<TopicDraft>)
    requires index < |ts|
    ensures |r| == |ts|
    ensures forall k :: 0 <= k < |ts| && k != index ==> r[k] == ts[k]
    ensures field == Title ==> r[index] == TopicDraft(value, ts[index].description)
    ensures field == Description ==> r[index] == TopicDraft(ts[index].title, value)
  {
    ts[index := match field
                case Title => ts[index].(title := value)
                case Description => ts[index].(description := value)]
  }

  /** `addSubtopic()`: appends an empty topic. */
  function AddSubtopic(ts: seq<TopicDraft>): (r: seq<TopicDraft>)
    ensures |r| == |ts| + 1
    ensures r[..|ts|] == ts
    ensures r[|ts|] == EmptyTopic
  {
    ts + [EmptyTopic]
  }

  /** `filter((_, i) => i !== index)` over the positions `from..` of the list. */
  function DropPosition(ts: seq<TopicDraft>, index: int, from: nat): (r: seq<TopicDraft>)
    requires from <= |ts|
    ensures from <= index < |ts| ==> r == ts[from..index] + ts[index + 1..]
    ensures !(from <= index < |ts|) ==> r == ts[from..]
    decreases |ts| - from
  {
    if from == |ts| then []
    else if from == index then DropPosition(ts, index, from + 1)
    else [ts[from]] + DropPosition(ts, index, from + 1)
  }

  /** `removeSubtopic(index)`: drops the topic at `index`; any other index leaves the list as it is. */
  function RemoveSubtopic(ts: seq<TopicDraft>, index: int): (r: seq<TopicDraft>)
    ensures 0 <= index < |ts| ==> |r| == |ts| - 1
    ensures 0 <= index < |ts| ==> forall k :: 0 <= k < index ==> r[k] == ts[k]
    ensures 0 <= index < |ts| ==> forall k :: index <= k < |r| ==> r[k] == ts[k + 1]
    ensures !(0 <= index < |ts|) ==> r == ts
  {
    assert ts[0..] == ts;
    DropPosition(ts, index, 0)
  }

  /** Removing the topic just added restores the list. */
  lemma RemoveUndoesAdd(ts: seq<TopicDraft>)
    ensures RemoveSubtopic(AddSubtopic(ts), |ts|) == ts
  {
    var r := RemoveSubtopic(AddSubtopic(ts), |ts|);
    assert |r| == |ts|;
    assert forall k :: 0 <= k < |ts| ==> r[k] == ts[k];
  }

  /** The delete button is rendered only while there is more than one topic. */
  predicate RemoveOffered(ts: seq<TopicDraft>) {
    |ts| > 1
  }

  /** What the user can do to the topic list through the form. */
  datatype Edit = Add | Remove(index: int) | Change(index: int, field: Field, value: string)

  /** The edit comes from a button or input the form renders for the current list. */
  predicate Offered(ts: seq<TopicDraft>, e: Edit) {
    match e
    case Add => true
    case Remove(i) => RemoveOffered(ts) && 0 <= i < |ts|
    case Change(i, _, _) => 0 <= i < |ts|
  }

  function ApplyEdit(ts: seq<TopicDraft>, e: Edit): seq<TopicDraft>
    requires Offered(ts, e)
  {
    match e
    case Add => AddSubtopic(ts)
    case Remove(i) => RemoveSubtopic(ts, i)
    case Change(i, f, v) => ChangeSubtopic(ts, i, f, v)
  }

  /** The list after a run of edits; `None` once an edit is not offered by the form. */
  function ApplyEdits(ts: seq<TopicDraft>, edits: seq<Edit>): Option<seq<TopicDraft>>
    decreases |edits|
  {
    if |edits| == 0 then Some(ts)
    else if !Offered(ts, edits[0]) then None
    else ApplyEdits(ApplyEdit(ts, edits[0]), edits[1..])
  }

  /** Through the form, the topic list never becomes empty. */
  lemma {:induction false} TopicsNeverEmpty(ts: seq<TopicDraft>, edits: seq<Edit>)
    requires |ts| >= 1
    ensures ApplyEdits(ts, edits).Some? ==> |ApplyEdits(ts, edits).value| >= 1
    decreases |edits|
  {
    if |edits| > 0 && Offered(ts, edits[0]) {
      TopicsNeverEmpty(ApplyEdit(ts, edits[0]), edits[1..]);
    }
  }

  /** The form starts with exactly one empty topic, so every reachable list is non-empty. */
  lemma InitialTopicsNeverEmpty(edits: seq<Edit>)
    ensures |InitialForm.subtopics| == 1 && InitialForm.subtopics[0] == EmptyTopic
    ensures ApplyEdits(InitialForm.subtopics, edits).Some? ==> |ApplyEdits(InitialForm.subtopics, edits).value| >= 1
  {
    TopicsNeverEmpty(InitialForm.subtopics, edits);
  }

  // ---------------------------------------------------------------------------
  // Cleaning the draft

  /** A topic whose title trims to the empty string is dropped on submit. */
  predicate IsBlank(t: TopicDraft) {
    Trim(t.title) == ""
  }

  function TrimTopic(t: TopicDraft): TopicDraft {
    TopicDraft(Trim(t.title), Trim(t.description))
  }

  /** A topic as it may appear in the payload. */
  predicate IsClean(t: TopicDraft) {
    t.title != "" && IsTrimmed(t.title) && IsTrimmed(t.description)
  }

  /**
    `subtopics.filter(t => t.title.trim() !== "").map(t => ({title: t.title.trim(),
    description: t.description.trim()}))`.
  */
  function CleanTopics(ts: seq<TopicDraft>): (r: seq<TopicDraft>)
    ensures |r| <= |ts|
    ensures forall k :: 0 <= k < |r| ==> IsClean(r[k])
  {
    if |ts| == 0 then []
    else if IsBlank(ts[0]) then CleanTopics(ts[1..])
    else [TrimTopic(ts[0])] + CleanTopics(ts[1..])
  }

  /** The positions of the non-blank topics, in increasing order. */
  function KeptPositions(ts: seq<TopicDraft>, from: nat): (ks: seq<nat>)
    requires from <= |ts|
    ensures forall j :: 0 <= j < |ks| ==> from <= ks[j] < |ts| && !IsBlank(ts[ks[j]])
    ensures forall i, j :: 0 <= i < j < |ks| ==> ks[i] < ks[j]
    ensures forall p :: from <= p < |ts| && !IsBlank(ts[p]) ==> p in ks
    decreases |ts| - from
  {
    if from == |ts| then []
    else
      var rest := KeptPositions(ts, from + 1);
      var keep := (p: nat) => p < |ts| && !IsBlank(ts[p]);
      if IsBlank(ts[from]) then
        KeptSkip(|ts|, keep, from, rest);
        rest
      else
        KeptStep(|ts|, keep, from, rest);
        [from] + rest
  }

  /** Skipping a dropped position `from`. */
  lemma KeptSkip(n: nat, keep: nat -> bool, from: nat, rest: seq<nat>)
    requires from < n && !keep(from)
    requires forall p: nat :: from + 1 <= p < n && keep(p) ==> p in rest
    ensures forall p: nat :: from <= p < n && keep(p) ==> p in rest
  {
  }

  /** Prepending a kept position `from` to the kept positions after it. */
  lemma KeptStep(n: nat, keep: nat -> bool, from: nat, rest: seq<nat>)
    requires from < n && keep(from)
    requires forall j :: 0 <= j < |rest| ==> from + 1 <= rest[j] < n && keep(rest[j])
    requires forall i, j :: 0 <= i < j < |rest| ==> rest[i] < rest[j]
    requires forall p: nat :: from + 1 <= p < n && keep(p) ==> p in rest
    ensures var ks := [from] + rest;
            && (forall j :: 0 <= j < |ks| ==> from <= ks[j] < n && keep(ks[j]))
            && (forall i, j :: 0 <= i < j < |ks| ==> ks[i] < ks[j])
            && (forall p: nat :: from <= p < n && keep(p) ==> p in ks)
  {
    var ks := [from] + rest;
    forall j | 0 <= j < |ks| ensures from <= ks[j] < n && keep(ks[j]) {
      if j > 0 { assert ks[j] == rest[j - 1]; }
    }
    forall i, j | 0 <= i < j < |ks| ensures ks[i] < ks[j] {
      if i > 0 { assert ks[i] == rest[i - 1]; }
      assert ks[j] == rest[j - 1];
    }
  }

  /**
    The cleaned topics are exactly the non-blank input topics, trimmed, in their
    original order: the k-th cleaned topic is the trimmed topic at the k-th
    non-blank position.
  */
  lemma {:induction false} CleanTopicsSelects(ts: seq<TopicDraft>, from: nat)
    requires from <= |ts|
    ensures |CleanTopics(ts[from..])| == |KeptPositions(ts, from)|
    ensures forall k :: 0 <= k < |KeptPositions(ts, from)| ==>
              CleanTopics(ts[from..])[k] == TrimTopic(ts[KeptPositions(ts, from)[k]])
    decreases |ts| - from
  {
    if from < |ts| {
      assert ts[from..][1..] == ts[from + 1..];
      assert ts[from..][0] == ts[from];
      CleanTopicsSelects(ts, from + 1);
      var c, ks := CleanTopics(ts[from..]), KeptPositions(ts, from);
      var c', ks' := CleanTopics(ts[from + 1..]), KeptPositions(ts, from + 1);
      if IsBlank(ts[from]) {
        assert c == c' && ks == ks';
      } else {
        assert c == [TrimTopic(ts[from])] + c';
        assert ks == [from] + ks';
        forall k | 0 <= k < |ks| ensures c[k] == TrimTopic(ts[ks[k]]) {
          if k > 0 {
            assert c[k] == c'[k - 1] && ks[k] == ks'[k - 1];
          }
        }
      }
    }
  }

  /**
    The submitted topics are exactly the non-blank ones, trimmed, in order:
    there is an increasing list of positions that holds every non-blank
    position and no blank one, and the k-th cleaned topic is the trimmed topic
    at the k-th of these positions.
  */
  lemma CleanTopicsSpec(ts: seq<TopicDraft>)
    ensures var ks := KeptPositions(ts, 0);
            && |CleanTopics(ts)| == |ks|
            && (forall i, j :: 0 <= i < j < |ks| ==> ks[i] < ks[j])
            && (forall p :: 0 <= p < |ts| ==> (p in ks <==> !IsBlank(ts[p])))
            && (forall k :: 0 <= k < |ks| ==> CleanTopics(ts)[k] == TrimTopic(ts[ks[k]]))
  {
    assert ts[0..] == ts;
    CleanTopicsSelects(ts, 0);
  }

  /** Topics that are already clean survive cleaning unchanged. */
  lemma {:induction false} CleanOfCleanTopics(ts: seq<TopicDraft>)
    requires forall k :: 0 <= k < |ts| ==> IsClean(ts[k])
    ensures CleanTopics(ts) == ts
  {
    if |ts| > 0 {
      TrimOfTrimmed(ts[0].title);
      TrimOfTrimmed(ts[0].description);
      assert TrimTopic(ts[0]) == ts[0];
      CleanOfCleanTopics(ts[1..]);
      assert [ts[0]] + ts[1..] == ts;
    }
  }

  /** Cleaning is idempotent. */
  lemma CleanTopicsIdempotent(ts: seq<TopicDraft>)
    ensures CleanTopics(CleanTopics(ts)) == CleanTopics(ts)
  {
    CleanOfCleanTopics(CleanTopics(ts));
  }

  /** The body of the create request. */
  datatype SkillPayload = SkillPayload(
    name: string,
    resourceType: string,
    platform: string,
    targetHours: string,
    description: string,
    userSubtopics: seq<TopicDraft>)

  /**
    The payload built by `handleSubmit`: the name and description trimmed,
    three fields forwarded, and the topics cleaned.
  */
  function BuildPayload(f: SkillForm): (p: SkillPayload)
    ensures p.name == Trim(f.name) && p.description == Trim(f.description)
    ensures p.userSubtopics == CleanTopics(f.subtopics)
    ensures IsTrimmed(p.name) && IsTrimmed(p.description)
    ensures (p.name == "") <==> AllWhite(f.name)
    ensures p.resourceType == f.resourceType && p.platform == f.platform && p.targetHours == f.targetHours
    ensures forall k :: 0 <= k < |p.userSubtopics| ==> IsClean(p.userSubtopics[k])
  {
    SkillPayload(Trim(f.name), f.resourceType, f.platform, f.targetHours, Trim(f.description), CleanTopics(f.subtopics))
  }

  /** Submitting the payload of an already submitted form sends the same payload again. */
  lemma BuildPayloadIdempotent(f: SkillForm)
    ensures var p := BuildPayload(f);
            BuildPayload(SkillForm(p.name, p.resourceType, p.platform, p.targetHours, p.description, p.userSubtopics)) == p
  {
    TrimIdempotent(f.name);
    TrimIdempotent(f.description);
    CleanTopicsIdempotent(f.subtopics);
  }

  /** Everything `handleSubmit` does that the model can observe. */
  datatype SubmitOutcome = SubmitOutcome(
    call: SkillPayload,
    error: string,
    skillAdded: bool,
    closed: bool)

  /** `handleSubmit`, given the reply of the create call. */
  function HandleSubmit(f: SkillForm, reply: Reply<()>): (r: SubmitOutcome)
    ensures r.call == BuildPayload(f)
    ensures reply.Ok? ==> r.error == "" && r.skillAdded && r.closed
    ensures reply.Failed? ==>
              && r.error == ServerMessageOr(reply.serverError, CreateFailedMessage)
              && r.error != ""
              && !r.skillAdded && !r.closed
  {
    var payload := BuildPayload(f);
    match reply
    case Ok(_) => SubmitOutcome(payload, "", true, true)
    case Failed(e) => SubmitOutcome(payload, ServerMessageOr(e, CreateFailedMessage), false, false)
  }
}

=== FILE: analytics.dfy ===
/**
  The analytics page: the three parallel series of the expected-versus-actual
  chart, the chart height, and the labels and values of the category chart.
*/
module Analytics {
  import opened Wrappers
  import opened JsNumbers
  import opened Api

  const Zero := Num(Finite(0.0))
  const BarHeight := 55
  const MinChartHeight := 250

  /** `skills.map((s) => s.target_hours || 0)`. */
  function ExpectedSeries(skills: seq<SkillSummary>): (r: seq<Value>)
    ensures |r| == |skills|
    ensures forall k :: 0 <= k < |r| && Truthy(skills[k].targetHours) ==> r[k] == skills[k].targetHours
    ensures forall k :: 0 <= k < |r| && !Truthy(skills[k].targetHours) ==> r[k] == Zero
  {
    if |skills| == 0 then []
    else ExpectedSeries(skills[..|skills| - 1]) + [Or(skills[|skills| - 1].targetHours, Zero)]
  }

  /** `skills.map((s) => s.learned_hours || 0)`. */
  function ActualSeries(skills: seq<SkillSummary>): (r: seq<Value>)
    ensures |r| == |skills|
    ensures forall k :: 0 <= k < |r| && Truthy(skills[k].learnedHours) ==> r[k] == skills[k].learnedHours
    ensures forall k :: 0 <= k < |r| && !Truthy(skills[k].learnedHours) ==> r[k] == Zero
  {
    if |skills| == 0 then []
    else ActualSeries(skills[..|skills| - 1]) + [Or(skills[|skills| - 1].learnedHours, Zero)]
  }

  /** `skills.map((s) => s.name)`. */
  function SkillLabels(skills: seq<SkillSummary>): (r: seq<string>)
    ensures |r| == |skills|
    ensures forall k :: 0 <= k < |r| ==> r[k] == skills[k].name
  {
    if |skills| == 0 then []
    else SkillLabels(skills[..|skills| - 1]) + [skills[|skills| - 1].name]
  }

  /** Every plotted value is truthy or 0: a missing or falsy value is never drawn as itself. */
  lemma SeriesHaveNoFalsyGaps(skills: seq<SkillSummary>)
    ensures forall k :: 0 <= k < |skills| ==> Truthy(ExpectedSeries(skills)[k]) || ExpectedSeries(skills)[k] == Zero
    ensures forall k :: 0 <= k < |skills| ==> Truthy(ActualSeries(skills)[k]) || ActualSeries(skills)[k] == Zero
  {
  }

  /** The bars of one skill share its index in all three series, and appending a skill appends one bar. */
  lemma {:induction false} SeriesExtend(skills: seq<SkillSummary>, s: SkillSummary)
    ensures ExpectedSeries(skills + [s]) == ExpectedSeries(skills) + [Or(s.targetHours, Zero)]
    ensures ActualSeries(skills + [s]) == ActualSeries(skills) + [Or(s.learnedHours, Zero)]
    ensures SkillLabels(skills + [s]) == SkillLabels(skills) + [s.name]
  {
    assert (skills + [s])[..|skills|] == skills;
  }

  /** `Math.max(skills.length * 55, 250)`. */
  function DynamicHeight(count: nat): (h: nat)
    ensures h >= MinChartHeight && h >= BarHeight * count
    ensures h == MinChartHeight || h == BarHeight * count
  {
    if count * BarHeight > MinChartHeight then count * BarHeight else MinChartHeight
  }

  /** More skills never shrink the chart. */
  lemma DynamicHeightMonotone(a: nat, b: nat)
    requires a <= b
    ensures DynamicHeight(a) <= DynamicHeight(b)
  {
  }

  /** `Object.keys(breakdown)`, in the object's property order. */
  function CategoryLabels(breakdown: seq<(string, Value)>): (r: seq<string>)
    ensures |r| == |breakdown|
    ensures forall k :: 0 <= k < |r| ==> r[k] == breakdown[k].0
  {
    seq(|breakdown|, k requires 0 <= k < |breakdown| => breakdown[k].0)
  }

  /** `Object.values(breakdown)`, in the same property order. */
  function CategoryValues(breakdown: seq<(string, Value)>): (r: seq<Value>)
    ensures |r| == |breakdown|
    ensures forall k :: 0 <= k < |r| ==> r[k] == breakdown[k].1
  {
    seq(|breakdown|, k requires 0 <= k < |breakdown| => breakdown[k].1)
  }

  function Zip(labels: seq<string>, values: seq<Value>): seq<(string, Value)>
    requires |labels| == |values|
  {
    seq(|labels|, k requires 0 <= k < |labels| => (labels[k], values[k]))
  }

  /**
    Each doughnut label is shown with its own category's count: the value at
    a label's position is what the breakdown object holds for that label, and
    every key of the object is a label.
  */
  lemma LabelsMatchCounts(breakdown: seq<(string, Value)>)
    requires ObjectKeysDistinct(breakdown)
    ensures forall k :: 0 <= k < |breakdown| ==>
              AsObject(breakdown)[CategoryLabels(breakdown)[k]] == CategoryValues(breakdown)[k]
    ensures forall key :: key in AsObject(breakdown) <==> key in CategoryLabels(breakdown)
  {
    ObjectLookup(breakdown);
  }

  /** Pairing the labels with the values position by position gives back the breakdown. */
  lemma CategoriesAligned(breakdown: seq<(string, Value)>)
    ensures |CategoryLabels(breakdown)| == |CategoryValues(breakdown)|
    ensures Zip(CategoryLabels(breakdown), CategoryValues(breakdown)) == breakdown
  {
  }

  /** `setAnalyticsData(response.data)`: unlike the dashboard there is no fallback to the response itself. */
  function AnalyticsData(r: Response<DashboardData>): (d: Option<DashboardData>)
    ensures d.Some? <==> r.Envelope? && r.data.Some?
    ensures d.Some? ==> d == r.data
  {
    match r
    case Envelope(data) => data
    case Bare(_) => None
  }

  /** `analyticsData.skills_progress || []`. */
  function SkillsOf(d: DashboardData): (s: seq<SkillSummary>)
    ensures d.skillsProgress.Some? ==> s == d.skillsProgress.value
    ensures d.skillsProgress.None? ==> s == []
  {
    match d.skillsProgress
    case Some(sp) => sp
    case None => []
  }

  /** The chart as drawn from the loaded data. */
  datatype Chart = Chart(labels: seq<string>, expected: seq<Value>, actual: seq<Value>, height: nat)

  function ChartOf(d: DashboardData): (c: Chart)
    ensures |c.labels| == |c.expected| == |c.actual| == |SkillsOf(d)|
    ensures c.height >= MinChartHeight
  {
    var skills := SkillsOf(d);
    Chart(SkillLabels(skills), ExpectedSeries(skills), ActualSeries(skills), DynamicHeight(|skills|))
  }

  /** Data without a skill list still draws a chart: an empty one at the minimum height. */
  lemma ChartWithoutSkills(d: DashboardData)
    requires d.skillsProgress.None?
    ensures ChartOf(d) == Chart([], [], [], MinChartHeight)
  {
  }

  /** A present skill list is drawn as it is: one bar pair and one label per skill, in order. */
  lemma ChartFollowsSkills(d: DashboardData)
    requires d.skillsProgress.Some?
    ensures var c := ChartOf(d);
            && |c.labels| == |d.skillsProgress.value|
            && forall k :: 0 <= k < |c.labels| ==> c.labels[k] == d.skillsProgress.value[k].name
  {
  }
}

=== FILE: api.dfy ===
/**
  The collaborator boundary: the reply of a server call, the `response.data ||
  response` envelope, and the shapes of server data the views display.
  The server computes every number in these records; the views only read them.
*/
module Api {
  import opened Wrappers
  import opened JsNumbers

  /**
    The outcome of a call to the server. A failure carries the `error` field of
    the error response body, when there is one.
  */
  datatype Reply<T> = Ok(value: T) | Failed(serverError: Option<string>)

  /**
    `err.response?.data?.error || fallback`: the server's message when it is a
    non-empty string, the view's own message otherwise.
  */
  function ServerMessageOr(e: Option<string>, fallback: string): (m: string)
    ensures e.Some? && e.value != "" ==> m == e.value
    ensures e.None? || e.value == "" ==> m == fallback
    ensures m != "" || fallback == ""
  {
    match e
    case Some(msg) => if msg != "" then msg else fallback
    case None => fallback
  }

  /**
    What a service call resolves to: either an HTTP envelope whose `data` may be
    missing, or the payload itself.
  */
  datatype Response<T> = Envelope(data: Option<T>) | Bare(payload: T)

  /**
    `response.data || response`: unwraps an envelope that carries data and keeps
    anything else as it is. A payload object is always truthy.
  */
  function Normalize<T>(r: Response<T>): (n: Response<T>)
    ensures r.Envelope? && r.data.Some? ==> n == Bare(r.data.value)
    ensures r.Bare? ==> n == r
    ensures r.Envelope? && r.data.None? ==> n == r
  {
    match r
    case Envelope(Some(d)) => Bare(d)
    case _ => r
  }

  /** The data a view can use after `Normalize`: present exactly for the `Bare` shape. */
  function Usable<T>(r: Response<T>): Option<T> {
    match r
    case Bare(p) => Some(p)
    case Envelope(_) => None
  }

  /** Normalizing twice is the same as normalizing once. */
  lemma NormalizeIdempotent<T>(r: Response<T>)
    ensures Normalize(Normalize(r)) == Normalize(r)
  {
  }

  /** Normalization yields usable data iff the response carried any. */
  lemma NormalizeUsable<T>(r: Response<T>)
    ensures Usable(Normalize(r)).Some? <==> (r.Bare? || r.data.Some?)
    ensures r.Envelope? && r.data.Some? ==> Usable(Normalize(r)) == r.data
    ensures r.Bare? ==> Usable(Normalize(r)) == Some(r.payload)
  {
  }

  /** One skill as the skills list and the dashboard receive it. */
  datatype SkillSummary = SkillSummary(
    id: int,
    name: string,
    status: string,
    progress: Value,
    targetHours: Value,
    learnedHours: Value)

  /**
    The dashboard payload, restricted to the parts the views branch on. The
    category breakdown is a JSON object, kept as its properties in order; a
    parsed object never repeats a key (`ObjectKeysDistinct`).
  */
  datatype DashboardData = DashboardData(
    skillsProgress: Option<seq<SkillSummary>>,
    recentActivityCount: nat,
    categoryBreakdown: seq<(string, Value)>)

  /** No key occurs twice among the properties. */
  predicate ObjectKeysDistinct(props: seq<(string, Value)>) {
    forall i, j :: 0 <= i < j < |props| ==> props[i].0 != props[j].0
  }

  /** The object the properties describe, as a key-to-value map. */
  function AsObject(props: seq<(string, Value)>): (o: map<string, Value>)
    ensures forall k :: 0 <= k < |props| ==> props[k].0 in o
    ensures forall key :: key in o ==> exists k :: 0 <= k < |props| && props[k].0 == key
  {
    if |props| == 0 then map[]
    else
      var init := props[..|props| - 1];
      var o := AsObject(init);
      assert forall k :: 0 <= k < |init| ==> init[k] == props[k];
      o[props[|props| - 1].0 := props[|props| - 1].1]
  }

  /** With distinct keys, looking up the key of any property gives that property's value. */
  lemma {:induction false} ObjectLookup(props: seq<(string, Value)>)
    requires ObjectKeysDistinct(props)
    ensures forall k :: 0 <= k < |props| ==> AsObject(props)[props[k].0] == props[k].1
    decreases |props|
  {
    if |props| > 0 {
      var init := props[..|props| - 1];
      assert ObjectKeysDistinct(init);
      ObjectLookup(init);
      forall k | 0 <= k < |props| ensures AsObject(props)[props[k].0] == props[k].1 {
        if k < |props| - 1 {
          assert init[k] == props[k];
          assert props[k].0 != props[|props| - 1].0;
        }
      }
    }
  }
}

=== FILE: badges.dfy ===
/** Bootstrap colour variants and the status label shown on badges. */
module Badges {

  datatype Variant = Success | Warning | Danger | Primary | Secondary

  /** Position of a progress band, from the lowest (`danger`) to the highest (`success`). */
  function BandRank(v: Variant): nat {
    match v
    case Danger => 0
    case Warning => 1
    case Success => 2
    case _ => 0
  }

  /** Index of the first '-' in `s`, or |s| when there is none. */
  function FirstDash(s: string): (i: nat)
    ensures i <= |s|
    ensures i < |s| ==> s[i] == '-'
    ensures forall k :: 0 <= k < i ==> s[k] != '-'
  {
    if |s| == 0 || s[0] == '-' then 0 else 1 + FirstDash(s[1..])
  }

  /** `status.replace("-", " ")`: only the first '-' becomes a space. */
  function StatusLabel(status: string): (r: string)
    ensures |r| == |status|
    ensures forall k :: 0 <= k < |status| && k != FirstDash(status) ==> r[k] == status[k]
    ensures FirstDash(status) < |status| ==> r[FirstDash(status)] == ' '
    ensures '-' !in status ==> r == status
  {
    var i := FirstDash(status);
    if i == |status| then status
    else status[..i] + " " + status[i + 1..]
  }

  /** The labels of the three statuses the server uses. */
  lemma StatusLabels(status: string)
    ensures status == "in-progress" ==> StatusLabel(status) == "in progress"
    ensures status == "to-learn" ==> StatusLabel(status) == "to learn"
    ensures status == "completed" ==> StatusLabel(status) == status
  {
    if status == "in-progress" {
      InProgressLabel(status);
    } else if status == "to-learn" {
      ToLearnLabel(status);
    } else if status == "completed" {
      NoDash(status);
    }
  }

  lemma InProgressLabel(status: string)
    requires status == "in-progress"
    ensures StatusLabel(status) == "in progress"
  {
    assert status[2] == '-';
    assert status[..2] == "in";
    assert status[3..] == "progress";
    assert "in" + " " + "progress" == "in progress";
    SplitLabel(status, 2, "in", "progress");
  }

  lemma ToLearnLabel(status: string)
    requires status == "to-learn"
    ensures StatusLabel(status) == "to learn"
  {
    assert status[2] == '-';
    assert status[..2] == "to";
    assert status[3..] == "learn";
    assert "to" + " " + "learn" == "to learn";
    SplitLabel(status, 2, "to", "learn");
  }

  /** A status `a + "-" + b` whose first dash sits after `a` is labelled `a + " " + b`. */
  lemma SplitLabel(s: string, i: nat, a: string, b: string)
    requires i < |s| && s[i] == '-'
    requires forall k :: 0 <= k < i ==> s[k] != '-'
    requires s[..i] == a && s[i + 1..] == b
    ensures StatusLabel(s) == a + " " + b
  {
    FirstDashAt(s, i);
  }

  /** A status without a '-' is its own label. */
  lemma NoDash(s: string)
    requires forall k :: 0 <= k < |s| ==> s[k] != '-'
    ensures StatusLabel(s) == s
  {
  }

  /** The first '-' is found where it is. */
  lemma FirstDashAt(s: string, i: nat)
    requires i < |s| && s[i] == '-'
    requires forall k :: 0 <= k < i ==> s[k] != '-'
    ensures FirstDash(s) == i
  {
  }
}

=== FILE: cross_view.dfy ===
/**
  Agreements and disagreements between views that each re-implement the same
  rule: the badge colours of the dashboard, the skills list and the skill
  detail page, and the way the dashboard and the analytics page unwrap the
  same server response.
*/
module CrossView {
  import opened Wrappers
  import opened JsNumbers
  import opened Api
  import Badges
  import Dashboard
  import SkillsList
  import SkillDetail
  import Analytics

  /** The two progress colourings agree on every input. */
  lemma ProgressVariantsAgree(progress: Value)
    ensures Dashboard.GetProgressVariant(progress) == SkillsList.GetProgressVariant(progress)
  {
  }

  /** The two status colourings differ exactly on `in-progress` (`primary` against `warning`). */
  lemma StatusVariantsDifferOnlyInProgress(status: string)
    ensures Dashboard.GetStatusVariant(status) != SkillsList.GetStatusVariant(status) <==> status == "in-progress"
    ensures status == "in-progress" ==>
              Dashboard.GetStatusVariant(status) == Badges.Primary && SkillsList.GetStatusVariant(status) == Badges.Warning
  {
  }

  /** The skill detail page colours statuses as the dashboard does. */
  lemma DetailBadgeMatchesDashboard(status: string)
    ensures SkillDetail.StatusBadge(status) == Dashboard.GetStatusVariant(status)
  {
  }

  /**
    For an envelope both pages see the same data; for a bare payload the
    dashboard renders it while the analytics page reports that it cannot load.
  */
  lemma UnwrappingDiffers(r: Response<DashboardData>)
    ensures r.Envelope? ==> Analytics.AnalyticsData(r) == Dashboard.LoadedData(r)
    ensures r.Bare? ==> Dashboard.LoadedData(r) == Some(r.payload) && Analytics.AnalyticsData(r).None?
  {
  }
}

=== FILE: dashboard.dfy ===
/**
  The dashboard: colour bands for progress and status, the first five skills
  shown in the progress panel, and the notices shown for empty lists.
*/
module Dashboard {
  import opened Wrappers
  import opened JsNumbers
  import opened Api
  import Badges

  /** `getProgressVariant(progress)`: `success` from 80, `warning` from 50, `danger` below. */
  function GetProgressVariant(progress: Value): (v: Badges.Variant)
    ensures v == Badges.Success || v == Badges.Warning || v == Badges.Danger
    ensures v == Badges.Success <==> AtLeast(ToNumber(progress), 80.0)
    ensures v == Badges.Warning <==> AtLeast(ToNumber(progress), 50.0) && !AtLeast(ToNumber(progress), 80.0)
    ensures v == Badges.Danger <==> !AtLeast(ToNumber(progress), 50.0)
  {
    var p := ToNumber(progress);
    if AtLeast(p, 80.0) then Badges.Success
    else if AtLeast(p, 50.0) then Badges.Warning
    else Badges.Danger
  }

  /** The three bands on a numeric progress, and a missing progress. */
  lemma ProgressBands(x: real)
    ensures x >= 80.0 ==> GetProgressVariant(Num(Finite(x))) == Badges.Success
    ensures 50.0 <= x < 80.0 ==> GetProgressVariant(Num(Finite(x))) == Badges.Warning
    ensures x < 50.0 ==> GetProgressVariant(Num(Finite(x))) == Badges.Danger
    ensures GetProgressVariant(Undefined) == Badges.Danger
  {
  }

  /** More progress never gives a lower band. */
  lemma ProgressVariantMonotone(a: Number, b: Number)
    requires Le(a, b)
    ensures Badges.BandRank(GetProgressVariant(Num(a))) <= Badges.BandRank(GetProgressVariant(Num(b)))
  {
  }

  /** `getStatusVariant(status)` of the dashboard. */
  function GetStatusVariant(status: string): (v: Badges.Variant)
    ensures v == Badges.Success <==> status == "completed"
    ensures v == Badges.Primary <==> status == "in-progress"
    ensures v == Badges.Secondary <==> status != "completed" && status != "in-progress"
  {
    if status == "completed" then Badges.Success
    else if status == "in-progress" then Badges.Primary
    else Badges.Secondary
  }

  /** `skills_progress.slice(0, 5)`. */
  function TopFive(sp: seq<SkillSummary>): (r: seq<SkillSummary>)
    ensures |r| == if |sp| < 5 then |sp| else 5
    ensures forall k :: 0 <= k < |r| ==> r[k] == sp[k]
  {
    if |sp| <= 5 then sp else sp[..5]
  }

  /** Taking the first five twice is taking them once. */
  lemma TopFiveIdempotent(sp: seq<SkillSummary>)
    ensures TopFive(TopFive(sp)) == TopFive(sp)
  {
  }

  /** Skills beyond the fifth never reach the panel. */
  lemma TopFiveIgnoresTail(sp: seq<SkillSummary>, more: seq<SkillSummary>)
    requires |sp| >= 5
    ensures TopFive(sp + more) == TopFive(sp)
  {
    assert (sp + more)[..5] == sp[..5];
  }

  /** One card of the progress panel. */
  datatype SkillCard = SkillCard(
    id: int,
    name: string,
    statusLabel: string,
    statusVariant: Badges.Variant,
    progressVariant: Badges.Variant)

  function CardOf(s: SkillSummary): SkillCard {
    SkillCard(s.id, s.name, Badges.StatusLabel(s.status), GetStatusVariant(s.status), GetProgressVariant(s.progress))
  }

  /** The rendered dashboard, reduced to what its rules decide. */
  datatype DashboardView = DashboardView(
    noSkillsNotice: bool,
    cards: seq<SkillCard>,
    noActivityNotice: bool,
    noCategoryNotice: bool,
    categoryRows: seq<(string, Value)>)

  /** The body of the dashboard for loaded data; the markup reads `skills_progress.length`, so the list must be there. */
  function Render(d: DashboardData): (v: DashboardView)
    requires d.skillsProgress.Some?
    ensures v.noSkillsNotice <==> |d.skillsProgress.value| == 0
    ensures |v.cards| <= 5 && |v.cards| <= |d.skillsProgress.value|
    ensures |v.cards| == 5 || |v.cards| == |d.skillsProgress.value|
    ensures forall k :: 0 <= k < |v.cards| ==> v.cards[k] == CardOf(d.skillsProgress.value[k])
    ensures v.noActivityNotice <==> d.recentActivityCount == 0
    ensures v.noCategoryNotice <==> |d.categoryBreakdown| == 0
    ensures v.categoryRows == d.categoryBreakdown
  {
    var sp := d.skillsProgress.value;
    var top := TopFive(sp);
    DashboardView(
      |sp| == 0,
      seq(|top|, k requires 0 <= k < |top| => CardOf(top[k])),
      d.recentActivityCount == 0,
      |d.categoryBreakdown| == 0,
      d.categoryBreakdown)
  }

  /** `setDashboardData(response.data || response)`: the data the dashboard renders. */
  function LoadedData(r: Response<DashboardData>): (d: Option<DashboardData>)
    ensures r.Envelope? && r.data.Some? ==> d == r.data
    ensures r.Bare? ==> d == Some(r.payload)
    ensures r.Envelope? && r.data.None? ==> d.None?
  {
    Usable(Normalize(r))
  }
}

=== FILE: js_numbers.dfy ===
/**
  The ECMAScript value semantics the user interface relies on: the primitive
  values a field of a server response can hold, `Number(v)` (ToNumber),
  truthiness (ToBoolean, which decides `a || b` and `!a`) and numeric
  comparison with a NaN operand. Numbers are exact reals extended with the
  two infinities and NaN; IEEE-754 rounding is not modelled.
*/
module JsNumbers {
  import opened Wrappers
  import opened JsText

  /** A JavaScript number. */
  datatype Number = Finite(r: real) | PosInf | NegInf | NaN

  /** A primitive JavaScript value as found in a field of a response or form. */
  datatype Value = Undefined | Null | Bool(b: bool) | Num(n: Number) | Str(s: string)

  /** ToBoolean on a number: every number except 0 and NaN is truthy. */
  predicate NumberTruthy(n: Number) {
    !n.NaN? && n != Finite(0.0)
  }

  /** ToBoolean on a value. */
  predicate Truthy(v: Value) {
    match v
    case Undefined => false
    case Null => false
    case Bool(b) => b
    case Num(n) => NumberTruthy(n)
    case Str(s) => |s| > 0
  }

  /** `v || d`: the first operand when it is truthy, otherwise the second. */
  function Or(v: Value, d: Value): (r: Value)
    ensures Truthy(v) ==> r == v
    ensures !Truthy(v) ==> r == d
  {
    if Truthy(v) then v else d
  }

  /**
    `||` read as a condition is disjunction, chains of `||` group either way,
    and `n || 0` on a number is `NumberOrZero`.
  */
  lemma OrLaws(u: Value, v: Value, w: Value)
    ensures Truthy(Or(u, v)) <==> Truthy(u) || Truthy(v)
    ensures Or(Or(u, v), w) == Or(u, Or(v, w))
    ensures u.Num? ==> Or(u, Num(Finite(0.0))) == Num(NumberOrZero(u.n))
  {
  }

  /** `n || 0` on a number: NaN and 0 become 0, every other number is kept. */
  function NumberOrZero(n: Number): (r: Number)
    ensures !r.NaN?
    ensures NumberTruthy(n) ==> r == n
    ensures r == Finite(0.0) <==> !NumberTruthy(n)
  {
    if NumberTruthy(n) then n else Finite(0.0)
  }

  /** `n >= k` for a finite right operand; a comparison with NaN is false. */
  predicate AtLeast(n: Number, k: real) {
    match n
    case Finite(x) => x >= k
    case PosInf => true
    case NegInf => false
    case NaN => false
  }

  /** `n > k` for a finite right operand; a comparison with NaN is false. */
  predicate GreaterThan(n: Number, k: real) {
    match n
    case Finite(x) => x > k
    case PosInf => true
    case NegInf => false
    case NaN => false
  }

  /** `n <= k` for a finite right operand; a comparison with NaN is false. */
  predicate AtMost(n: Number, k: real) {
    match n
    case Finite(x) => x <= k
    case PosInf => false
    case NegInf => true
    case NaN => false
  }

  /** `a <= b` between two numbers: the infinities bound the reals, and NaN compares with nothing. */
  predicate Le(a: Number, b: Number) {
    match (a, b)
    case (NaN, _) => false
    case (_, NaN) => false
    case (NegInf, _) => true
    case (_, PosInf) => true
    case (Finite(x), Finite(y)) => x <= y
    case _ => false
  }

  /** Unary minus. */
  function Negate(n: Number): Number {
    match n
    case Finite(x) => Finite(-x)
    case PosInf => NegInf
    case NegInf => PosInf
    case NaN => NaN
  }

  /** The value of a hexadecimal digit character, or -1 for any other character. */
  function DigitValue(c: char): int {
    if '0' <= c <= '9' then c as int - '0' as int
    else if 'a' <= c <= 'f' then c as int - 'a' as int + 10
    else if 'A' <= c <= 'F' then c as int - 'A' as int + 10
    else -1
  }

  predicate IsDigit(c: char, radix: nat) {
    0 <= DigitValue(c) < radix
  }

  predicate AllDigits(ds: string, radix: nat) {
    forall k :: 0 <= k < |ds| ==> IsDigit(ds[k], radix)
  }

  /** The natural number written by the digits `ds` in base `radix`. */
  function DigitsValue(ds: string, radix: nat): nat
    requires AllDigits(ds, radix)
  {
    if |ds| == 0 then 0
    else DigitsValue(ds[..|ds| - 1], radix) * radix + DigitValue(ds[|ds| - 1])
  }

  /** Number of decimal digits at the start of `s`. */
  function DigitRun(s: string): (n: nat)
    ensures n <= |s|
    ensures AllDigits(s[..n], 10)
    ensures n < |s| ==> !IsDigit(s[n], 10)
  {
    if |s| == 0 || !IsDigit(s[0], 10) then 0
    else
      var m := DigitRun(s[1..]);
      assert s[..1 + m] == [s[0]] + s[1..][..m];
      1 + m
  }

  function Pow10(e: nat): (p: nat)
    ensures p >= 1
  {
    if e == 0 then 1 else 10 * Pow10(e - 1)
  }

  /** Powers of ten multiply by adding exponents. */
  lemma {:induction false} Pow10Add(a: nat, b: nat)
    ensures Pow10(a + b) == Pow10(a) * Pow10(b)
    decreases a
  {
    if a > 0 {
      Pow10Add(a - 1, b);
      assert Pow10(a + b) == 10 * Pow10(a - 1 + b);
      assert 10 * (Pow10(a - 1) * Pow10(b)) == (10 * Pow10(a - 1)) * Pow10(b);
    }
  }

  /** `m * 10^e` for a possibly negative exponent. */
  function Scale(m: nat, e: int): real {
    if e >= 0 then (m * Pow10(e)) as real else m as real / Pow10(-e) as real
  }

  /** The optional ExponentPart of a StrDecimalLiteral; `tail` must be consumed entirely. */
  function ParseExponent(tail: string): Option<int> {
    if |tail| == 0 then Some(0)
    else if tail[0] != 'e' && tail[0] != 'E' then None
    else
      var rest := tail[1..];
      var signed := |rest| > 0 && (rest[0] == '+' || rest[0] == '-');
      var ds := if signed then rest[1..] else rest;
      if |ds| > 0 && AllDigits(ds, 10) then
        var e: int := DigitsValue(ds, 10);
        Some(if signed && rest[0] == '-' then -e else e)
      else None
  }

  /**
    StrUnsignedDecimalLiteral without `Infinity`: digits with an optional
    fraction (at least one digit in all) and an optional exponent.
  */
  function ParseDecimal(u: string): Option<real> {
    var i := DigitRun(u);
    var intDigits := u[..i];
    var afterInt := u[i..];
    var hasDot := |afterInt| > 0 && afterInt[0] == '.';
    var afterDot := if hasDot then afterInt[1..] else afterInt;
    var f := if hasDot then DigitRun(afterDot) else 0;
    var fracDigits := afterDot[..f];
    var tail := afterDot[f..];
    if |intDigits| + |fracDigits| == 0 then None
    else
      match ParseExponent(tail)
      case None => None
      case Some(e) => Some(Scale(DigitsValue(intDigits + fracDigits, 10), e - |fracDigits|))
  }

  /** An unsigned StrDecimalLiteral, or NaN. */
  function Unsigned(u: string): Number {
    if u == "Infinity" then PosInf
    else match ParseDecimal(u)
      case Some(x) => Finite(x)
      case None => NaN
  }

  /** A NonDecimalIntegerLiteral body in the given radix, or NaN. */
  function Radix(ds: string, radix: nat): Number {
    if |ds| > 0 && AllDigits(ds, radix) then Finite(DigitsValue(ds, radix) as real) else NaN
  }

  /** StringToNumber (section 7.1.4.1.1 of ECMA-262), without IEEE-754 rounding. */
  function StringToNumber(s: string): (r: Number)
    ensures AllWhite(s) ==> r == Finite(0.0)
  {
    NumeralValue(Trim(s))
  }

  /** The StringNumericLiteral grammar on text with the white space already trimmed. */
  function NumeralValue(t: string): Number {
    if |t| == 0 then Finite(0.0)
    else if |t| >= 2 && t[0] == '0' && (t[1] == 'x' || t[1] == 'X') then Radix(t[2..], 16)
    else if |t| >= 2 && t[0] == '0' && (t[1] == 'o' || t[1] == 'O') then Radix(t[2..], 8)
    else if |t| >= 2 && t[0] == '0' && (t[1] == 'b' || t[1] == 'B') then Radix(t[2..], 2)
    else if t[0] == '-' then Negate(Unsigned(t[1..]))
    else if t[0] == '+' then Unsigned(t[1..])
    else Unsigned(t)
  }

  /** `Number(v)`: ToNumber on a primitive value. */
  function ToNumber(v: Value): (n: Number)
    ensures v.Num? ==> n == v.n
    ensures v.Undefined? ==> n.NaN?
    ensures v.Null? ==> n == Finite(0.0)
    ensures v.Bool? ==> n == Finite(if v.b then 1.0 else 0.0)
    ensures v.Str? ==> n == StringToNumber(v.s)
  {
    match v
    case Undefined => NaN
    case Null => Finite(0.0)
    case Bool(b) => Finite(if b then 1.0 else 0.0)
    case Num(n) => n
    case Str(s) => StringToNumber(s)
  }

  /** White space around a numeral does not change what it denotes. */
  lemma StringToNumberIgnoresWhite(a: string, t: string, b: string)
    requires AllWhite(a) && AllWhite(b) && IsTrimmed(t)
    ensures StringToNumber(a + t + b) == StringToNumber(t)
  {
    TrimUnique(a, t, b);
    TrimOfTrimmed(t);
  }

  function DigitChar(d: nat): (c: char)
    requires d < 10
    ensures DigitValue(c) == d
  {
    ('0' as int + d) as char
  }

  /** The decimal numeral of `n`, without leading zeros. */
  function DecimalText(n: nat): (t: string)
    ensures |t| > 0 && AllDigits(t, 10)
    ensures t[0] == '0' ==> n == 0
  {
    if n < 10 then [DigitChar(n)]
    else
      var p := DecimalText(n / 10);
      var t := p + [DigitChar(n % 10)];
      assert t[0] == p[0];
      t
  }

  /** Reading back the digits of `DecimalText(n)` gives `n`. */
  lemma {:induction false} DecimalDigitsRoundTrip(n: nat)
    ensures DigitsValue(DecimalText(n), 10) == n
  {
    var t := DecimalText(n);
    if n >= 10 {
      DecimalDigitsRoundTrip(n / 10);
      assert t[..|t| - 1] == DecimalText(n / 10);
    }
  }

  /** `Number` applied to the decimal numeral of a natural number yields that number. */
  lemma DecimalTextRoundTrip(n: nat)
    ensures StringToNumber(DecimalText(n)) == Finite(n as real)
  {
    var t := DecimalText(n);
    DigitsAreUnsigned(t);
    assert t != "Infinity" by { assert IsDigit(t[0], 10); }
    ParseDecimalOfDigits(t);
    DecimalDigitsRoundTrip(n);
  }

  /** A run of decimal digits has no blank, sign or radix prefix to strip. */
  lemma DigitsAreUnsigned(t: string)
    requires |t| > 0 && AllDigits(t, 10)
    ensures StringToNumber(t) == Unsigned(t)
  {
    DecimalDigitChar(t[0]);
    DecimalDigitChar(t[|t| - 1]);
    assert IsTrimmed(t);
    TrimOfTrimmed(t);
    if |t| >= 2 {
      DecimalDigitChar(t[1]);
    }
  }

  /** A decimal digit is one of '0'..'9', hence not white space, a sign or a radix letter. */
  lemma DecimalDigitChar(c: char)
    requires IsDigit(c, 10)
    ensures '0' <= c <= '9' && !IsWhite(c)
  {
  }

  /** A plain run of decimal digits denotes the integer it spells. */
  lemma ParseDecimalOfDigits(t: string)
    requires |t| > 0 && AllDigits(t, 10)
    ensures ParseDecimal(t) == Some(DigitsValue(t, 10) as real)
  {
    DigitRunAll(t);
    assert t[..|t|] == t;
    assert t[|t|..] == [];
    assert ParseExponent([]) == Some(0);
    assert t + [] == t;
    assert Scale(DigitsValue(t, 10), 0) == DigitsValue(t, 10) as real;
  }

  /** `Number("-" + digits)` is the negated integer. */
  lemma NegatedNumeral(n: nat)
    ensures StringToNumber("-" + DecimalText(n)) == Finite(-(n as real))
  {
    var t := DecimalText(n);
    var s := "-" + t;
    assert s[|s| - 1] == t[|t| - 1] && s[1..] == t;
    DecimalDigitChar(t[|t| - 1]);
    TrimOfTrimmed(s);
    assert t != "Infinity" by { assert IsDigit(t[0], 10); }
    ParseDecimalOfDigits(t);
    DecimalDigitsRoundTrip(n);
  }

  /**
    `Number(a + "." + b)` for decimal digits `a` (possibly none) and at least
    one fraction digit `b`: the digits of `a + b` scaled down by `10^|b|`.
  */
  lemma FractionNumeral(a: string, b: string)
    requires AllDigits(a, 10) && AllDigits(b, 10) && |b| > 0
    ensures StringToNumber(a + "." + b) == Finite(DigitsValue(a + b, 10) as real / Pow10(|b|) as real)
  {
    var u := a + "." + b;
    assert u[|u| - 1] == b[|b| - 1];
    assert u[0] == if |a| > 0 then a[0] else '.';
    assert u[1] == if |a| > 1 then a[1] else if |a| == 1 then '.' else b[0];
    UnsignedText(u);
    assert u != "Infinity" by { assert u[0] != 'I'; }
    ParseFraction(a, b);
  }

  /** Text starting with a digit or '.' and ending with a digit is read as an unsigned decimal. */
  lemma UnsignedText(u: string)
    requires |u| > 0 && (IsDigit(u[0], 10) || u[0] == '.') && IsDigit(u[|u| - 1], 10)
    requires |u| >= 2 ==> IsDigit(u[1], 10) || u[1] == '.'
    ensures StringToNumber(u) == Unsigned(u)
  {
    assert !IsWhite(u[0]) && u[0] != '-' && u[0] != '+' by {
      if IsDigit(u[0], 10) { DecimalDigitChar(u[0]); }
    }
    assert !IsWhite(u[|u| - 1]) by { DecimalDigitChar(u[|u| - 1]); }
    TrimOfTrimmed(u);
    if |u| >= 2 {
      assert '0' <= u[1] <= '9' || u[1] == '.' by {
        if IsDigit(u[1], 10) { DecimalDigitChar(u[1]); }
      }
    }
    PlainUnsigned(u);
  }

  /** Trimmed text with no sign and no radix prefix goes straight to the unsigned reading. */
  lemma PlainUnsigned(t: string)
    requires |t| > 0
    requires t[0] != '-' && t[0] != '+'
    requires |t| >= 2 ==> '0' <= t[1] <= '9' || t[1] == '.'
    ensures NumeralValue(t) == Unsigned(t)
  {
  }

  /** The decimal-literal reading of `a + "." + b`. */
  lemma ParseFraction(a: string, b: string)
    requires AllDigits(a, 10) && AllDigits(b, 10) && |b| > 0
    ensures ParseDecimal(a + "." + b) == Some(DigitsValue(a + b, 10) as real / Pow10(|b|) as real)
  {
    var u := a + "." + b;
    assert u == a + ("." + b);
    DigitRunStops(a, "." + b);
    var i := DigitRun(u);
    assert u[..i] == a;
    var afterInt := u[i..];
    assert afterInt == "." + b;
    var afterDot := afterInt[1..];
    assert afterDot == b;
    DigitRunAll(b);
    var f := DigitRun(afterDot);
    assert afterDot[..f] == b;
    assert afterDot[f..] == [];
    assert ParseExponent(afterDot[f..]) == Some(0);
    assert Scale(DigitsValue(a + b, 10), 0 - |b|) == DigitsValue(a + b, 10) as real / Pow10(|b|) as real;
  }

  /** Text without a decimal digit is no StrUnsignedDecimalLiteral. */
  lemma NoDigitsDecimal(u: string)
    requires forall k :: 0 <= k < |u| ==> !IsDigit(u[k], 10)
    ensures ParseDecimal(u).None?
  {
    assert DigitRun(u) == 0;
    assert u[..0] == [];
    assert u[0..] == u;
    if |u| > 0 && u[0] == '.' {
      assert DigitRun(u[1..]) == 0 by {
        if |u| > 1 { assert u[1..][0] == u[1]; }
      }
    }
  }

  /**
    Trimmed text without a decimal digit, other than "Infinity" and
    "+Infinity", reads as 0 (when empty), NaN, or -Infinity; never as a
    positive number.
  */
  lemma NoDigitsNumeral(t: string)
    requires forall k :: 0 <= k < |t| ==> !IsDigit(t[k], 10)
    requires t != "Infinity" && t != "+Infinity"
    ensures NumeralValue(t) == Finite(0.0) || NumeralValue(t).NaN? || NumeralValue(t).NegInf?
  {
    if |t| > 0 {
      assert t[0] != '0' by { assert IsDigit('0', 10); }
      var u := t[1..];
      assert forall k :: 0 <= k < |u| ==> u[k] == t[k + 1];
      if t[0] == '-' || t[0] == '+' {
        if u != "Infinity" {
          NoDigitsDecimal(u);
        }
      } else {
        NoDigitsDecimal(t);
      }
    }
  }

  /** The digit run of `a + rest` stops at the first character of `rest` when that is no digit. */
  lemma {:induction false} DigitRunStops(a: string, rest: string)
    requires AllDigits(a, 10)
    requires |rest| > 0 && !IsDigit(rest[0], 10)
    ensures DigitRun(a + rest) == |a|
    decreases |a|
  {
    if |a| == 0 {
      assert a + rest == rest;
    } else {
      assert (a + rest)[0] == a[0];
      assert (a + rest)[1..] == a[1..] + rest;
      DigitRunStops(a[1..], rest);
    }
  }

  /** Decimal digits spell zero exactly when every one of them is '0'. */
  lemma {:induction false} ZeroDigits(ds: string)
    requires AllDigits(ds, 10)
    ensures DigitsValue(ds, 10) == 0 <==> forall k :: 0 <= k < |ds| ==> ds[k] == '0'
    decreases |ds|
  {
    if |ds| > 0 {
      var init := ds[..|ds| - 1];
      ZeroDigits(init);
      DecimalDigitChar(ds[|ds| - 1]);
      assert forall k :: 0 <= k < |init| ==> init[k] == ds[k];
    }
  }

  lemma DigitRunAll(t: string)
    requires AllDigits(t, 10)
    ensures DigitRun(t) == |t|
  {
  }
}

=== FILE: js_text.dfy ===
/**
  String facilities of ECMAScript that the user interface relies on:
  the white-space class stripped by `String.prototype.trim`, `trim` itself,
  and the `length` of a string, which counts UTF-16 code units.
  Dafny's `char` is a Unicode scalar value, so a code point above U+FFFF
  counts twice in `length`.
*/
module JsText {

  /** WhiteSpace or LineTerminator in the sense of ECMAScript (sections 12.2 and 12.3 of ECMA-262). */
  predicate IsWhite(c: char) {
    || c == '\t' || c == '\n' || c == '\U{B}' || c == '\U{C}' || c == '\r' || c == ' '
    || c == '\U{A0}' || c == '\U{1680}' || ('\U{2000}' <= c <= '\U{200A}')
    || c == '\U{2028}' || c == '\U{2029}' || c == '\U{202F}' || c == '\U{205F}'
    || c == '\U{3000}' || c == '\U{FEFF}'
  }

  ghost predicate AllWhite(s: string) {
    forall k :: 0 <= k < |s| ==> IsWhite(s[k])
  }

  /** Neither end of `s` is white space. */
  predicate IsTrimmed(s: string) {
    |s| == 0 || (!IsWhite(s[0]) && !IsWhite(s[|s| - 1]))
  }

  /** Number of white-space characters at the start of `s`. */
  function LeadingWhite(s: string): (n: nat)
    ensures n <= |s|
    ensures AllWhite(s[..n])
    ensures n < |s| ==> !IsWhite(s[n])
  {
    if |s| == 0 || !IsWhite(s[0]) then 0
    else
      var m := LeadingWhite(s[1..]);
      assert s[..1 + m] == [s[0]] + s[1..][..m];
      1 + m
  }

  /** Number of white-space characters at the end of `s`. */
  function TrailingWhite(s: string): (n: nat)
    ensures n <= |s|
    ensures AllWhite(s[|s| - n..])
    ensures n < |s| ==> !IsWhite(s[|s| - 1 - n])
  {
    if |s| == 0 || !IsWhite(s[|s| - 1]) then 0
    else
      var m := TrailingWhite(s[..|s| - 1]);
      TrailingStep(s, m);
      1 + m
  }

  lemma TrailingStep(s: string, m: nat)
    requires 0 < |s| && IsWhite(s[|s| - 1]) && m < |s|
    requires AllWhite(s[..|s| - 1][|s| - 1 - m..])
    ensures AllWhite(s[|s| - (1 + m)..])
  {
    var u := s[..|s| - 1][|s| - 1 - m..];
    var w := s[|s| - (1 + m)..];
    forall k | 0 <= k < |w| ensures IsWhite(w[k]) {
      if k < m { assert w[k] == u[k]; }
    }
  }

  /** `s.trim()`: `s` without its leading and trailing white space. */
  function Trim(s: string): (r: string)
    ensures IsTrimmed(r)
    ensures |r| == 0 <==> AllWhite(s)
    ensures |r| <= |s|
  {
    var i := LeadingWhite(s);
    var t := s[i..];
    var j := TrailingWhite(t);
    if i == |s| then
      assert s[..i] == s;
      []
    else
      assert !IsWhite(s[i]) && !IsWhite(t[0]);
      assert j < |t|;
      t[..|t| - j]
  }

  /** Any split of `s` into white space, a trimmed middle and white space determines `Trim(s)`. */
  lemma {:induction false} TrimUnique(a: string, m: string, b: string)
    requires AllWhite(a) && AllWhite(b) && IsTrimmed(m)
    ensures Trim(a + m + b) == m
  {
    var s := a + m + b;
    if |m| == 0 {
      assert s == a + b;
      assert AllWhite(s) by {
        forall k | 0 <= k < |s| ensures IsWhite(s[k]) {
          if k < |a| { assert s[k] == a[k]; } else { assert s[k] == b[k - |a|]; }
        }
      }
    } else {
      assert s[|a|] == m[0];
      LeadingWhiteAt(s, |a|);
      var t := s[|a|..];
      assert t == m + b;
      assert t[|m| - 1] == m[|m| - 1];
      TrailingWhiteAt(t, |b|);
      assert t[..|t| - |b|] == m;
    }
  }

  lemma LeadingWhiteAt(s: string, k: nat)
    requires k < |s| && AllWhite(s[..k]) && !IsWhite(s[k])
    ensures LeadingWhite(s) == k
  {
  }

  lemma TrailingWhiteAt(s: string, k: nat)
    requires k < |s| && AllWhite(s[|s| - k..]) && !IsWhite(s[|s| - 1 - k])
    ensures TrailingWhite(s) == k
  {
  }

  /** Trimming a trimmed string changes nothing. */
  lemma TrimOfTrimmed(s: string)
    requires IsTrimmed(s)
    ensures Trim(s) == s
  {
    assert [] + s + [] == s;
    TrimUnique([], s, []);
  }

  /** `trim` is idempotent. */
  lemma TrimIdempotent(s: string)
    ensures Trim(Trim(s)) == Trim(s)
  {
    TrimOfTrimmed(Trim(s));
  }

  /** `s.length`: the number of UTF-16 code units of `s`. */
  function Utf16Length(s: string): (n: nat)
    ensures |s| <= n <= 2 * |s|
    ensures (forall k :: 0 <= k < |s| ==> s[k] as int <= 0xFFFF) ==> n == |s|
    ensures |s| == 1 ==> n == if s[0] as int > 0xFFFF then 2 else 1
  {
    if |s| == 0 then 0
    else Utf16Length(s[..|s| - 1]) + (if s[|s| - 1] as int > 0xFFFF then 2 else 1)
  }

  /**
    The length of a concatenation is the sum of the lengths. With the
    one-character values this fixes the length of every string: one unit per
    character, two for a character above U+FFFF (a surrogate pair).
  */
  lemma {:induction false} Utf16LengthConcat(s: string, t: string)
    ensures Utf16Length(s + t) == Utf16Length(s) + Utf16Length(t)
    decreases |t|
  {
    if |t| == 0 {
      assert s + t == s;
    } else {
      var u := s + t;
      assert u[..|u| - 1] == s + t[..|t| - 1];
      assert u[|u| - 1] == t[|t| - 1];
      Utf16LengthConcat(s, t[..|t| - 1]);
    }
  }

  /** `Trim(s)` is a contiguous piece of `s`. */
  lemma TrimIsSlice(s: string)
    ensures exists i, j :: 0 <= i <= j <= |s| && Trim(s) == s[i..j]
  {
    var i := LeadingWhite(s);
    if i == |s| {
      assert Trim(s) == s[i..i];
    } else {
      var t := s[i..];
      var j := TrailingWhite(t);
      assert Trim(s) == t[..|t| - j] == s[i..|s| - j];
    }
  }
}

=== FILE: register.dfy ===
/** The registration form: the ordered password checks in front of the `register` call. */
module Register {
  import opened Wrappers
  import opened JsText

  const MismatchMessage := "Passwords do not match"
  const TooShortMessage := "Password must be at least 6 characters"
  const MinPasswordLength := 6
  const LoginPath := "/login"

  datatype RegisterForm = RegisterForm(username: string, email: string, password: string, confirmPassword: string)

  /** The result object of the authentication context's `register`. */
  datatype RegisterResult = RegisterResult(success: bool, error: string)

  /** The checks of `handleSubmit`, in order; `None` lets the form call `register`. */
  function Precheck(f: RegisterForm): (r: Option<string>)
    ensures r == Some(MismatchMessage) <==> f.password != f.confirmPassword
    ensures r == Some(TooShortMessage) <==>
              f.password == f.confirmPassword && Utf16Length(f.password) < MinPasswordLength
    ensures r.None? <==> f.password == f.confirmPassword && Utf16Length(f.password) >= MinPasswordLength
  {
    if f.password != f.confirmPassword then Some(MismatchMessage)
    else if Utf16Length(f.password) < MinPasswordLength then Some(TooShortMessage)
    else None
  }

  /** A mismatch is reported even when the password is also too short. */
  lemma MismatchTakesPrecedence(f: RegisterForm)
    requires f.password != f.confirmPassword
    ensures Precheck(f) == Some(MismatchMessage)
  {
  }

  /**
    `length` counts UTF-16 code units: three characters outside the Basic
    Multilingual Plane already make a long enough password, five ASCII letters do not.
  */
  lemma LengthCountsCodeUnits()
    ensures Utf16Length("\U{1F600}\U{1F600}\U{1F600}") == 6
    ensures Utf16Length("abcde") == 5
  {
  }

  datatype RegisterCall = RegisterCall(username: string, email: string, password: string)

  /** Everything `handleSubmit` does that the model can observe. The error is cleared first, so no earlier error survives. */
  datatype RegisterOutcome = RegisterOutcome(call: Option<RegisterCall>, error: string, navigateTo: Option<string>)

  /** `handleSubmit`, given the result `register` would return. */
  function HandleRegister(f: RegisterForm, result: RegisterResult): (r: RegisterOutcome)
    ensures r.call.Some? <==>
              f.password == f.confirmPassword && Utf16Length(f.password) >= MinPasswordLength
    ensures r.call.Some? ==> r.call.value == RegisterCall(f.username, f.email, f.password)
    ensures r.call.None? ==> r.error == Precheck(f).value && r.navigateTo.None?
    ensures r.call.Some? && result.success ==> r.navigateTo == Some(LoginPath) && r.error == ""
    ensures r.call.Some? && !result.success ==> r.navigateTo.None? && r.error == result.error
  {
    match Precheck(f)
    case Some(msg) => RegisterOutcome(None, msg, None)
    case None =>
      var call := RegisterCall(f.username, f.email, f.password);
      if result.success then RegisterOutcome(Some(call), "", Some(LoginPath))
      else RegisterOutcome(Some(call), result.error, None)
  }
}

=== FILE: skill_detail.dfy ===
/**
  The skill detail view: the guard in front of a subtopic status update, the
  validation and payload of a logged study session, the completion-review
  modal, the actions offered per subtopic status, and the review rating.
  The server performs the status change and every roll-up; the view decides
  only what it sends and how it reacts to the reply.
*/
module SkillDetail {
  import opened Wrappers
  import opened JsNumbers
  import opened Api
  import Badges

  const Completed := "completed"
  const InProgress := "in-progress"

  const NotFoundMessage := "Subtopic not found."
  const LogTimeMessage := "Please log time for this topic before marking it complete."
  const UpdateFailedMessage := "Failed to update subtopic status."
  const InvalidDurationMessage := "Please enter a valid duration in minutes (greater than 0)."
  const SessionFailedMessage := "Failed to add session."
  const ReviewFailedMessage := "Failed to save review."

  /** A subtopic of the loaded skill. The hour fields are whatever the server sent. */
  datatype Subtopic = Subtopic(
    id: int,
    title: string,
    status: string,
    expectedHours: Value,
    hoursSpent: Value)

  // ---------------------------------------------------------------------------
  // Status update guard

  /** Position of the first subtopic with the given id, or |subs| when there is none. */
  function FindIndex(subs: seq<Subtopic>, id: int): (k: nat)
    ensures k <= |subs|
    ensures k < |subs| ==> subs[k].id == id
    ensures forall j :: 0 <= j < k ==> subs[j].id != id
  {
    if |subs| == 0 || subs[0].id == id then 0 else 1 + FindIndex(subs[1..], id)
  }

  /**
    `skill?.subtopics?.find((s) => s.id === subtopicId)`. A skill that is not
    loaded, or has no subtopic list, behaves as the empty list.
  */
  function FindSubtopic(subs: seq<Subtopic>, id: int): (r: Option<Subtopic>)
    ensures r.None? <==> forall j :: 0 <= j < |subs| ==> subs[j].id != id
    ensures r.Some? ==> r.value in subs && r.value.id == id
    ensures r.Some? ==> exists k :: 0 <= k < |subs| && r.value == subs[k] && forall j :: 0 <= j < k ==> subs[j].id != id
  {
    var k := FindIndex(subs, id);
    if k < |subs| then Some(subs[k]) else None
  }

  /** `(Number(v) || 0) === 0`: the hours are missing, non-numeric or zero. */
  function NoHours(v: Value): (b: bool)
    ensures b <==> ToNumber(v).NaN? || ToNumber(v) == Finite(0.0)
    ensures v.Undefined? || v.Null? ==> b
    ensures v.Num? && v.n.Finite? && v.n.r > 0.0 ==> !b
  {
    NumberOrZero(ToNumber(v)) == Finite(0.0)
  }

  /** What the view sends to the server. */
  datatype StatusCall = StatusCall(subtopicId: int, status: string)

  datatype UpdateDecision = Reject(message: string) | Send(call: StatusCall)

  /**
    The checks of `handleUpdateSubtopic` before the server is called: the
    subtopic must exist, and completion needs non-zero expected and spent hours.
  */
  function UpdateGuard(subs: seq<Subtopic>, id: int, requested: string): (d: UpdateDecision)
    ensures d == Reject(NotFoundMessage) <==> FindSubtopic(subs, id).None?
    ensures d == Reject(LogTimeMessage) <==>
              && FindSubtopic(subs, id).Some?
              && requested == Completed
              && (NoHours(FindSubtopic(subs, id).value.expectedHours) || NoHours(FindSubtopic(subs, id).value.hoursSpent))
    ensures d.Send? ==> d.call == StatusCall(id, requested)
    ensures d.Reject? ==> d.message == NotFoundMessage || d.message == LogTimeMessage
  {
    match FindSubtopic(subs, id)
    case None => Reject(NotFoundMessage)
    case Some(st) =>
      if requested == Completed && (NoHours(st.expectedHours) || NoHours(st.hoursSpent)) then
        Reject(LogTimeMessage)
      else
        Send(StatusCall(id, requested))
  }

  /** A blank hours string counts as no hours, whatever its white space. */
  lemma BlankHoursAreNoHours(s: string)
    requires JsText.AllWhite(s)
    ensures NoHours(Str(s))
  {
  }

  /** Hours sent as a positive decimal numeral count as logged time. */
  lemma NumeralHoursCount(n: nat)
    requires n > 0
    ensures !NoHours(Str(DecimalText(n)))
  {
    DecimalTextRoundTrip(n);
  }

  /**
    Hours sent as a decimal fraction such as "0.5" or "2.50" count as logged
    time exactly when one of their digits is not zero.
  */
  lemma FractionHoursCount(a: string, b: string)
    requires AllDigits(a, 10) && AllDigits(b, 10) && |b| > 0
    ensures !NoHours(Str(a + "." + b)) <==> exists k :: 0 <= k < |a + b| && (a + b)[k] != '0'
  {
    var m, p := DigitsValue(a + b, 10), Pow10(|b|);
    var x := m as real / p as real;
    FractionNumeral(a, b);
    assert ToNumber(Str(a + "." + b)) == Finite(x);
    assert NoHours(Str(a + "." + b)) <==> x == 0.0;
    QuotientIsZero(m, p);
    ZeroDigits(a + b);
  }

  lemma QuotientIsZero(m: nat, p: nat)
    requires p >= 1
    ensures m as real / p as real == 0.0 <==> m == 0
  {
    if m > 0 {
      assert m as real / p as real > 0.0;
    }
  }

  /** A request for any status other than `completed` is never blocked by the hours check. */
  lemma NonCompletionNeverBlocked(subs: seq<Subtopic>, id: int, requested: string)
    requires requested != Completed
    ensures UpdateGuard(subs, id, requested).Send? <==> exists j :: 0 <= j < |subs| && subs[j].id == id
  {
  }

  /** Completing an existing subtopic is sent iff both its expected and its spent hours are non-zero. */
  lemma CompletionNeedsBothHours(subs: seq<Subtopic>, st: Subtopic)
    requires FindSubtopic(subs, st.id) == Some(st)
    ensures UpdateGuard(subs, st.id, Completed) == Send(StatusCall(st.id, Completed))
            <==> !NoHours(st.expectedHours) && !NoHours(st.hoursSpent)
  {
  }

  // ---------------------------------------------------------------------------
  // Reaction to the server reply

  /** The server's answer to a status update; a missing `data` has both fields undefined. */
  datatype UpdateData = UpdateData(skillCompleted: Value, skillId: Value)

  /** The completion-review modal; a closed modal has a null skill id. */
  datatype CompletionModal = CompletionModal(open: bool, skillId: Value)

  const ModalClosed := CompletionModal(false, Null)

  /**
    The modal after a successful update: opened when the reply reports
    `skill_completed`, for the reply's `skill_id` or else the route's id.
  */
  function ModalAfterUpdate(data: UpdateData, routeId: string, modal: CompletionModal): (m: CompletionModal)
    ensures Truthy(data.skillCompleted) ==> m.open
    ensures Truthy(data.skillCompleted) && Truthy(data.skillId) ==> m.skillId == data.skillId
    ensures Truthy(data.skillCompleted) && !Truthy(data.skillId) ==> m.skillId == Str(routeId)
    ensures !Truthy(data.skillCompleted) ==> m == modal
  {
    if Truthy(data.skillCompleted) then CompletionModal(true, Or(data.skillId, Str(routeId))) else modal
  }

  /** Everything `handleUpdateSubtopic` does that the model can observe. */
  datatype UpdateOutcome = UpdateOutcome(
    call: Option<StatusCall>,
    alert: Option<string>,
    modal: CompletionModal,
    refreshed: bool)

  /** `handleUpdateSubtopic(id, requested)` against the loaded subtopics, given the server's reply. */
  function HandleUpdateSubtopic(
    subs: seq<Subtopic>, routeId: string, modal: CompletionModal,
    id: int, requested: string, reply: Reply<UpdateData>): (r: UpdateOutcome)
    ensures r.call.Some? <==> UpdateGuard(subs, id, requested).Send?
    ensures r.call.Some? ==> r.call.value == StatusCall(id, requested)
    ensures r.call.None? ==>
              && r.alert == Some(UpdateGuard(subs, id, requested).message)
              && r.modal == modal && !r.refreshed
    ensures r.refreshed <==> r.call.Some? && reply.Ok?
    ensures r.call.Some? && reply.Ok? ==>
              r.alert.None? && r.modal == ModalAfterUpdate(reply.value, routeId, modal)
    ensures r.call.Some? && reply.Failed? ==>
              && r.alert == Some(ServerMessageOr(reply.serverError, UpdateFailedMessage))
              && r.modal == modal
  {
    match UpdateGuard(subs, id, requested)
    case Reject(msg) => UpdateOutcome(None, Some(msg), modal, false)
    case Send(call) =>
      match reply
      case Ok(data) => UpdateOutcome(Some(call), None, ModalAfterUpdate(data, routeId, modal), true)
      case Failed(e) => UpdateOutcome(Some(call), Some(ServerMessageOr(e, UpdateFailedMessage)), modal, false)
  }

  /** The review modal opens only after a status update the server accepted and reported as completing the skill. */
  lemma ModalOpensOnlyOnCompletion(
    subs: seq<Subtopic>, routeId: string, id: int, requested: string, reply: Reply<UpdateData>)
    ensures HandleUpdateSubtopic(subs, routeId, ModalClosed, id, requested, reply).modal.open
            <==> UpdateGuard(subs, id, requested).Send? && reply.Ok? && Truthy(reply.value.skillCompleted)
  {
  }

  // ---------------------------------------------------------------------------
  // Actions offered per subtopic

  datatype Action = Start | MarkComplete | LogSession

  /** The buttons shown beside a subtopic, in display order. */
  function OfferedActions(status: string): (r: seq<Action>)
    ensures Start in r <==> status != InProgress && status != Completed
    ensures MarkComplete in r <==> status != Completed
    ensures LogSession in r <==> status != Completed
    ensures |r| == 0 <==> status == Completed
  {
    (if status != InProgress && status != Completed then [Start] else [])
    + (if status != Completed then [MarkComplete, LogSession] else [])
  }

  /** What a button asks for. */
  datatype Intent = UpdateStatus(status: string) | OpenSession

  function IntentOf(a: Action): Intent {
    match a
    case Start => UpdateStatus(InProgress)
    case MarkComplete => UpdateStatus(Completed)
    case LogSession => OpenSession
  }

  /** Order of statuses along the learning path; any status other than the two named ones is the start. */
  function StatusRank(status: string): nat {
    if status == Completed then 2 else if status == InProgress then 1 else 0
  }

  /** Every status a button requests lies strictly ahead of the subtopic's current status. */
  lemma OfferedRequestsMoveForward(status: string, a: Action)
    requires a in OfferedActions(status)
    ensures IntentOf(a).UpdateStatus? ==> StatusRank(IntentOf(a).status) > StatusRank(status)
  {
  }

  /** Starting a listed subtopic is always sent to the server. */
  lemma StartIsNeverBlocked(subs: seq<Subtopic>, k: nat)
    requires k < |subs|
    ensures UpdateGuard(subs, subs[k].id, InProgress) == Send(StatusCall(subs[k].id, InProgress))
  {
    NonCompletionNeverBlocked(subs, subs[k].id, InProgress);
  }

  /** The inline badge colour of a subtopic or skill status in this view. */
  function StatusBadge(status: string): (v: Badges.Variant)
    ensures v == Badges.Success <==> status == Completed
    ensures v == Badges.Primary <==> status == InProgress
    ensures v == Badges.Secondary <==> status != Completed && status != InProgress
  {
    if status == Completed then Badges.Success
    else if status == InProgress then Badges.Primary
    else Badges.Secondary
  }

  // ---------------------------------------------------------------------------
  // Logging a session

  /** The session modal and its two inputs. */
  datatype SessionForm = SessionForm(open: bool, subtopicId: Option<int>, minutes: string, notes: string)

  /** `openSessionModal(id)`: selects the subtopic and clears both inputs. */
  function OpenSessionModal(f: SessionForm, id: int): (g: SessionForm)
    ensures g.open && g.subtopicId == Some(id) && g.minutes == "" && g.notes == ""
  {
    SessionForm(true, Some(id), "", "")
  }

  /** `closeSessionModal()`: clears the selection and keeps the inputs. */
  function CloseSessionModal(f: SessionForm): (g: SessionForm)
    ensures !g.open && g.subtopicId.None?
    ensures g.minutes == f.minutes && g.notes == f.notes
  {
    f.(open := false, subtopicId := None)
  }

  /**
    Opening the modal on a subtopic with a truthy id, typing a positive whole
    number of minutes and saving sends exactly that session, with empty notes,
    and closes the modal.
  */
  lemma SessionFlow(f: SessionForm, id: int, n: nat, routeId: string)
    requires id != 0 && n > 0
    ensures var g := OpenSessionModal(f, id).(minutes := DecimalText(n));
            var r := HandleAddSession(g, routeId, Ok(()));
            && r.call == Some(SessionPayload(StringToNumber(routeId), id, Finite(n as real), ""))
            && r.alert.None? && r.refreshed
            && !r.form.open && r.form.subtopicId.None?
  {
    DecimalTextRoundTrip(n);
  }

  /** Once the modal is closed, saving sends nothing and changes nothing, whatever was typed. */
  lemma ClosedSessionIsNoOp(f: SessionForm, routeId: string, reply: Reply<()>)
    ensures HandleAddSession(CloseSessionModal(f), routeId, reply)
            == SessionOutcome(None, None, CloseSessionModal(f), false)
  {
  }

  /** `const minutes = Number(text); if (!minutes || minutes <= 0) reject`. */
  function ValidateDuration(text: string): (r: Result<Number, string>)
    ensures r.Success? <==> GreaterThan(StringToNumber(text), 0.0)
    ensures r.Success? ==> r.value == StringToNumber(text)
    ensures r.Failure? ==> r.error == InvalidDurationMessage
  {
    var minutes := ToNumber(Str(text));
    if !NumberTruthy(minutes) || AtMost(minutes, 0.0) then Failure(InvalidDurationMessage)
    else Success(minutes)
  }

  /** A blank duration is rejected. */
  lemma BlankDurationRejected(text: string)
    requires JsText.AllWhite(text)
    ensures ValidateDuration(text) == Failure(InvalidDurationMessage)
  {
  }

  /** A duration typed as a positive integer is accepted as exactly that many minutes. */
  lemma TypedMinutesAccepted(n: nat)
    requires n > 0
    ensures ValidateDuration(DecimalText(n)) == Success(Finite(n as real))
  {
    DecimalTextRoundTrip(n);
  }

  /**
    Text without a decimal digit is rejected, unless it trims to "Infinity"
    or "+Infinity": `Number` gives NaN, 0 or -Infinity for it.
  */
  lemma NonNumericRejected(text: string)
    requires forall k :: 0 <= k < |text| ==> !IsDigit(text[k], 10)
    requires JsText.Trim(text) != "Infinity" && JsText.Trim(text) != "+Infinity"
    ensures ValidateDuration(text) == Failure(InvalidDurationMessage)
  {
    var t := JsText.Trim(text);
    JsText.TrimIsSlice(text);
    var i, j :| 0 <= i <= j <= |text| && t == text[i..j];
    assert forall k :: 0 <= k < |t| ==> t[k] == text[i + k];
    NoDigitsNumeral(t);
  }

  /** A duration typed as zero or a negative integer is rejected. */
  lemma NonPositiveMinutesRejected(n: nat)
    ensures ValidateDuration("-" + DecimalText(n)).Failure?
    ensures ValidateDuration(DecimalText(0)).Failure?
  {
    NegatedNumeral(n);
    DecimalTextRoundTrip(0);
  }

  /** The body of the session request. */
  datatype SessionPayload = SessionPayload(
    skillId: Number,
    subtopicId: int,
    durationMinutes: Number,
    notes: string)

  /** Everything `handleAddSession` does that the model can observe. */
  datatype SessionOutcome = SessionOutcome(
    call: Option<SessionPayload>,
    alert: Option<string>,
    form: SessionForm,
    refreshed: bool)

  /** `!sessionModal.subtopicId`: no subtopic, or the falsy id 0. */
  predicate NoSubtopicSelected(f: SessionForm) {
    f.subtopicId.None? || f.subtopicId.value == 0
  }

  /** `handleAddSession()` for the route's skill id, given the server's reply. */
  function HandleAddSession(f: SessionForm, routeId: string, reply: Reply<()>): (r: SessionOutcome)
    ensures NoSubtopicSelected(f) ==> r == SessionOutcome(None, None, f, false)
    ensures r.call.Some? <==> !NoSubtopicSelected(f) && GreaterThan(StringToNumber(f.minutes), 0.0)
    ensures r.call.Some? ==>
              && r.call.value.skillId == StringToNumber(routeId)
              && r.call.value.subtopicId == f.subtopicId.value
              && r.call.value.durationMinutes == StringToNumber(f.minutes)
              && GreaterThan(r.call.value.durationMinutes, 0.0)
              && r.call.value.notes == f.notes
    ensures !NoSubtopicSelected(f) && r.call.None? ==>
              r.alert == Some(InvalidDurationMessage) && r.form == f && !r.refreshed
    ensures r.call.Some? && reply.Ok? ==> r.alert.None? && r.form == CloseSessionModal(f) && r.refreshed
    ensures r.call.Some? && reply.Failed? ==>
              && r.alert == Some(ServerMessageOr(reply.serverError, SessionFailedMessage))
              && r.form == f && !r.refreshed
  {
    if NoSubtopicSelected(f) then SessionOutcome(None, None, f, false)
    else
      match ValidateDuration(f.minutes)
      case Failure(msg) => SessionOutcome(None, Some(msg), f, false)
      case Success(minutes) =>
        // `sessionNotes || ""`: an empty note is sent as the empty string
        var payload := SessionPayload(ToNumber(Str(routeId)), f.subtopicId.value, minutes,
                                      if f.notes != "" then f.notes else "");
        match reply
        case Ok(_) => SessionOutcome(Some(payload), None, CloseSessionModal(f), true)
        case Failed(e) => SessionOutcome(Some(payload), Some(ServerMessageOr(e, SessionFailedMessage)), f, false)
  }

  // ---------------------------------------------------------------------------
  // Completion review

  /** The review modal with its rating and notes inputs. */
  datatype ReviewForm = ReviewForm(modal: CompletionModal, rating: int, notes: string)

  const InitialReview := ReviewForm(ModalClosed, 0, "")

  /** The values of the five star buttons. */
  const Stars: seq<int> := [1, 2, 3, 4, 5]

  datatype ReviewPayload = ReviewPayload(rating: int, notes: string)

  datatype ReviewCall = ReviewCall(skillId: Value, payload: ReviewPayload)

  datatype SaveOutcome = SaveOutcome(
    call: Option<ReviewCall>,
    alert: Option<string>,
    form: ReviewForm,
    refreshed: bool)

  /** `handleSaveCompletion()`, given the reply of the review call. */
  function HandleSaveCompletion(f: ReviewForm, reply: Reply<()>): (r: SaveOutcome)
    ensures !Truthy(f.modal.skillId) ==> r == SaveOutcome(None, None, f, false)
    ensures r.call.Some? <==> Truthy(f.modal.skillId)
    ensures r.call.Some? ==> r.call.value == ReviewCall(f.modal.skillId, ReviewPayload(f.rating, f.notes))
    ensures r.call.Some? && reply.Ok? ==> r.form == InitialReview && r.refreshed && r.alert.None?
    ensures r.call.Some? && reply.Failed? ==> r.form == f && r.alert == Some(ReviewFailedMessage) && !r.refreshed
  {
    if !Truthy(f.modal.skillId) then SaveOutcome(None, None, f, false)
    else
      var call := ReviewCall(f.modal.skillId, ReviewPayload(f.rating, if f.notes != "" then f.notes else ""));
      match reply
      case Ok(_) => SaveOutcome(Some(call), None, ReviewForm(ModalClosed, 0, ""), true)
      case Failed(_) => SaveOutcome(Some(call), Some(ReviewFailedMessage), f, false)
  }

  /** What can happen to the review form. */
  datatype ReviewEvent =
    | Opened(modal: CompletionModal)
    | StarClicked(star: int)
    | NotesTyped(text: string)
    | Skipped
    | SaveAttempted(reply: Reply<()>)

  /** Star clicks come only from the five star buttons. */
  predicate Possible(e: ReviewEvent) {
    e.StarClicked? ==> e.star in Stars
  }

  /**
    One event on the review form: a star sets the rating, typing sets the
    notes, Skip closes the modal and keeps both inputs, and a save either
    resets everything or leaves the form as it was.
  */
  function ReviewStep(f: ReviewForm, e: ReviewEvent): (r: ReviewForm)
    ensures e.Opened? ==> r.modal == e.modal && r.rating == f.rating && r.notes == f.notes
    ensures e.StarClicked? ==> r.rating == e.star && r.notes == f.notes && r.modal == f.modal
    ensures e.NotesTyped? ==> r.notes == e.text && r.rating == f.rating && r.modal == f.modal
    ensures e.Skipped? ==> !r.modal.open && r.rating == f.rating && r.notes == f.notes
    ensures e.SaveAttempted? ==> r == f || r == InitialReview
  {
    match e
    case Opened(m) => f.(modal := m)
    case StarClicked(s) => f.(rating := s)
    case NotesTyped(t) => f.(notes := t)
    case Skipped => f.(modal := ModalClosed)
    case SaveAttempted(reply) => HandleSaveCompletion(f, reply).form
  }

  function ReviewRun(f: ReviewForm, events: seq<ReviewEvent>): ReviewForm
    decreases |events|
  {
    if |events| == 0 then f else ReviewRun(ReviewStep(f, events[0]), events[1..])
  }

  /** The rating stays within 0..5 through any sequence of possible events. */
  lemma {:induction false} RatingStaysInRange(f: ReviewForm, events: seq<ReviewEvent>)
    requires 0 <= f.rating <= 5
    requires forall k :: 0 <= k < |events| ==> Possible(events[k])
    ensures 0 <= ReviewRun(f, events).rating <= 5
    decreases |events|
  {
    if |events| > 0 {
      RatingStaysInRange(ReviewStep(f, events[0]), events[1..]);
    }
  }

  /** A successful save resets the rating and notes and closes the modal, whatever came before. */
  lemma SavedReviewResets(f: ReviewForm)
    requires Truthy(f.modal.skillId)
    ensures ReviewStep(f, SaveAttempted(Ok(()))) == InitialReview
    ensures !InitialReview.modal.open && InitialReview.rating == 0 && InitialReview.notes == ""
  {
  }
}

=== FILE: skills_list.dfy ===
/**
  The skills list: colour bands for progress and status, the target-hours
  label, the delete confirmation, and the empty-state card.
*/
module SkillsList {
  import opened Wrappers
  import opened JsNumbers
  import opened Api
  import Badges

  /** `getStatusVariant(status)` of the list: unlike the dashboard, `in-progress` is `warning`. */
  function GetStatusVariant(status: string): (v: Badges.Variant)
    ensures v == Badges.Success <==> status == "completed"
    ensures v == Badges.Warning <==> status == "in-progress"
    ensures v == Badges.Secondary <==> status != "completed" && status != "in-progress"
  {
    if status == "completed" then Badges.Success
    else if status == "in-progress" then Badges.Warning
    else Badges.Secondary
  }

  /** `getProgressVariant(progress)` of the list, written out again in the source. */
  function GetProgressVariant(progress: Value): (v: Badges.Variant)
    ensures v == Badges.Success <==> AtLeast(ToNumber(progress), 80.0)
    ensures v == Badges.Warning <==> AtLeast(ToNumber(progress), 50.0) && !AtLeast(ToNumber(progress), 80.0)
    ensures v == Badges.Danger <==> !AtLeast(ToNumber(progress), 50.0)
  {
    if AtLeast(ToNumber(progress), 80.0) then Badges.Success
    else if AtLeast(ToNumber(progress), 50.0) then Badges.Warning
    else Badges.Danger
  }

  /** `skill.target_hours > 0`: the label is shown only for a target above zero. */
  function ShowTargetHours(s: SkillSummary): (b: bool)
    ensures s.targetHours.Num? ==> (b <==> GreaterThan(s.targetHours.n, 0.0))
    ensures s.targetHours.Undefined? || s.targetHours.Null? ==> !b
    ensures b ==> Truthy(s.targetHours)
  {
    GreaterThan(ToNumber(s.targetHours), 0.0)
  }

  /** Which target values show the label. */
  lemma TargetHoursLabel(s: SkillSummary, n: nat)
    ensures s.targetHours.Num? && s.targetHours.n.Finite? ==> (ShowTargetHours(s) <==> s.targetHours.n.r > 0.0)
    ensures s.targetHours.Undefined? || s.targetHours.Null? || s.targetHours == Str("") ==> !ShowTargetHours(s)
    ensures s.targetHours == Str(DecimalText(n)) ==> (ShowTargetHours(s) <==> n > 0)
  {
    DecimalTextRoundTrip(n);
  }

  /** The delete confirmation: its visibility, the selected skill and the success toast. */
  datatype DeleteState = DeleteState(showModal: bool, selected: Option<SkillSummary>, toast: bool)

  /** `openDeletePopup(skill)`. */
  function OpenDeletePopup(st: DeleteState, s: SkillSummary): (r: DeleteState)
    ensures r.showModal && r.selected == Some(s) && r.toast == st.toast
  {
    st.(showModal := true, selected := Some(s))
  }

  /** Everything `handleConfirmDelete` does that the model can observe. */
  datatype DeleteOutcome = DeleteOutcome(call: Option<int>, state: DeleteState, refreshed: bool)

  /** `handleConfirmDelete()`, given the reply of the delete call. */
  function HandleConfirmDelete(st: DeleteState, reply: Reply<()>): (r: DeleteOutcome)
    ensures st.selected.None? ==> r == DeleteOutcome(None, st, false)
    ensures st.selected.Some? ==> r.call == Some(st.selected.value.id)
    ensures st.selected.Some? && reply.Ok? ==>
              !r.state.showModal && r.state.selected.None? && r.state.toast && r.refreshed
    ensures reply.Failed? ==> r.state == st && !r.refreshed
  {
    match st.selected
    case None => DeleteOutcome(None, st, false)
    case Some(s) =>
      match reply
      case Ok(_) => DeleteOutcome(Some(s.id), DeleteState(false, None, true), true)
      case Failed(_) => DeleteOutcome(Some(s.id), st, false)
  }

  /** Confirming right after opening the popup deletes exactly the skill it was opened for. */
  lemma ConfirmDeletesOpenedSkill(st: DeleteState, s: SkillSummary, reply: Reply<()>)
    ensures HandleConfirmDelete(OpenDeletePopup(st, s), reply).call == Some(s.id)
  {
  }

  /** One card of the list, reduced to what its rules decide. */
  datatype ListCard = ListCard(
    id: int,
    statusLabel: string,
    statusVariant: Badges.Variant,
    progressVariant: Badges.Variant,
    targetLabel: bool)

  function CardOf(s: SkillSummary): ListCard {
    ListCard(s.id, Badges.StatusLabel(s.status), GetStatusVariant(s.status),
             GetProgressVariant(s.progress), ShowTargetHours(s))
  }

  datatype ListView = ListView(cards: seq<ListCard>, emptyState: bool)

  /** The list renders one card per skill, in order, and the empty-state card iff there is none. */
  function Render(skills: seq<SkillSummary>): (v: ListView)
    ensures |v.cards| == |skills|
    ensures forall k :: 0 <= k < |skills| ==> v.cards[k].id == skills[k].id
    ensures forall k :: 0 <= k < |skills| ==>
              (v.cards[k].targetLabel <==> GreaterThan(ToNumber(skills[k].targetHours), 0.0))
    ensures v.emptyState <==> |skills| == 0
  {
    ListView(seq(|skills|, k requires 0 <= k < |skills| => CardOf(skills[k])), |skills| == 0)
  }
}

=== FILE: wrappers.dfy ===
/** Optional values and success-or-error results, shared by the whole model. */
module Wrappers {

  /** A value that may be absent (JavaScript `null` / `undefined`). */
  datatype Option<+T> = None | Some(value: T)

  /** The outcome of a validation: the accepted value or the message shown to the user. */
  datatype Result<+R, +E> = Success(value: R) | Failure(error: E)
}
